=== FILE: README.md ===
# NMDownloader in Dafny

A model of the `utils` package of NMDownloader, a small client of the Nexus Mods
web API: the API-key holder (`Authenticator`), the mod-id list and its CSV reader
(`ModListImporter`), the request builder and its transport-error handling
(`NexusQuery`, `ModFileQuery`), the session operations built on top of it
(`NexusInterface.authenticate`, `import_file_list`, `import_mod_info`), the file
downloader with its file-name extraction (`FileDownloader`,
`download_with_progress_bar`, `get_mod_name_from_url`) and the download-page
link generator (`NexusBrowser`).

Every operation is a pure function or a short method over immutable values.
Python objects become datatypes whose fields are their attributes. A property
setter returns the new object together with the exception it raised, if any
(`Wrappers.Step`). Operations that can raise return `Result`, with the Python
exception as a `PyError`. The network is a parameter: `send: Request -> Transport`
answers each request with a response or with one of the `requests` exceptions.
The disk is the set of directories that exist plus a map from file path to
bytes; reading a text file decodes its bytes with an encoding that is a
parameter, standing for the locale's. The progress bar, `print` and the JSON files written under `profile/`
are outside the model.

Modules:

- `Wrappers`: `Option`, `Result`, `Step`, and `Sequence`, which turns a list of results into a result of a list and stops at the first failure.
- `FileSystem`: the disk, bytes, and text encodings.
- `Exceptions`: the `requests` exception hierarchy, the `except` clauses of `query`, and the Python exceptions that escape.
- `PyValues`: dynamic Python values, JSON values, and dictionary keys. Python treats `True` and `1` as the same key.
- `Text`: `str.split` and `str.join` on one separator, the last `/`-segment, and the newline translation of text-mode reads.
- `Decimal`: `str()` of integers and `int()` of text. `int()` accepts surrounding whitespace, a sign and `_` between digits.
- `Authorization`, `ModImport`, `NexusQueries`, `NexusInterface`, `ModDownload`, `NexusBrowser`: one module per source file of the core.

Where the code behaves differently from what its names and docstrings suggest,
the model follows the code. The cases are:

- `query` always puts the base URL in front of an explicit URL, even an absolute one.
- `import_mod_info` files each body under the body's own `mod_id`, not under the id that was requested.
- When no file name can be extracted, `download_with_progress_bar` falls back to the whole URL as the file name. A URL with a `/` that neither starts nor ends it then names a file in a sub-directory of the folder that `os.makedirs` did not create; unless that sub-directory already exists, `open` raises `FileNotFoundError`. A URL with no `/` at all opens in the folder itself. The empty URL leaves the folder path itself as the file path. With the default folder `mod_downloads/`, or any folder ending in `/`, that path is a directory and `open` refuses it with `IsADirectoryError`. A folder such as `a/b` instead gives a file named `a/b`.
- The download file is opened, which creates or empties it, before the request is sent. A failed request therefore leaves an empty file behind. A response with an error status is written like any other, because `raise_for_status` is never called.
- In both import loops, one body that cannot be decoded ends the whole import with that exception. No partial dictionary is returned.

## Model

| member | source | states |
|---|---|---|
| Authorization.New | utils/authorization.py:28-29 | the constructor stores any key unchecked and the getter returns it |
| Authorization.Fresh | utils/authorization.py:28-29 | with no argument the key is `None` |
| Authorization.SetApiKey | utils/authorization.py:48-52 | a `str` key is stored and read back; any other value raises `AssertionError` and leaves the object unchanged |
| Authorization.FromFile | utils/authorization.py:31-42 | a missing file raises `AssertionError` (and only a missing file does); bytes the encoding rejects raise `UnicodeDecodeError` (and only those do); otherwise the key is the whole decoded text after newline translation |
| Authorization.SetThenGet | utils/authorization.py:44-60 | setting then getting returns the set key; the second of two sets wins |
| Authorization.RejectedKeyKeepsOld | utils/authorization.py:48-52 | a refused key leaves the previous key in place |
| Authorization.FromFileKeepsContents | utils/authorization.py:40-42 | a key file whose decoded text has no carriage returns is taken verbatim, trailing newline included |
| Authorization.FromFileExample | utils/authorization.py:31-42 | the ASCII files `apikey` and `apikey\n` give exactly those keys |
| Authorization.UndecodableKeyFile | utils/authorization.py:40-41 | a key file holding a byte above 127 cannot be read as ASCII and raises `UnicodeDecodeError` |
| ModImport.New | utils/mod_import.py:43-49 | `None` becomes an empty list through the setter; any other value is stored unchecked |
| ModImport.SetModList | utils/mod_import.py:132-141 | a list is stored; any other value raises `AssertionError` and leaves the object unchanged |
| ModImport.ModListProperty | utils/mod_import.py:118-141 | the default list is empty, a set list reads back, the last set wins, and a refused value keeps the old list |
| ModImport.Cell | utils/mod_import.py:80 | `row[column]` exists exactly when `-len(row) <= column < len(row)`; a negative column counts from the end |
| ModImport.RowId | utils/mod_import.py:80 | a missing cell raises `IndexError`, a cell that is not an integer raises `ValueError`, and otherwise the id is `int(cell)` |
| ModImport.ExtractIds | utils/mod_import.py:78-80 | the import succeeds exactly when every row has an integer id; the ids are those of the rows, in row order |
| ModImport.FirstBadRowDecides | utils/mod_import.py:78-80 | the first bad row's exception is the one raised, whatever the later rows hold |
| ModImport.FromCsvRows | utils/mod_import.py:51-84 | with a header the first row is skipped; the result holds the ids as a list of `int`, or the exception of the first bad row |
| ModImport.ExtractIdsRoundTrip | utils/mod_import.py:78-80 | a column of ids written with `str()` is read back as the same ids |
| ModImport.FromCsvSkipsHeader | utils/mod_import.py:74-75 | a header row is dropped and the remaining rows are read as data |
| ModImport.FromCsvWithHeader | utils/mod_import.py:51-84 | the CSV `modids,names / 1,abc / 2,def` with its header detected gives `[1, 2]` |
| ModImport.FromCsvHeaderAsData | utils/mod_import.py:78-80 | read without a header, the cell `modids` raises `ValueError` |
| Decimal.ParseIntToString | utils/mod_import.py:80 | `int(str(n)) == n` for every integer `n` |
| Decimal.ParseDigits | utils/mod_import.py:80 | digits are accepted exactly when `int()` accepts them: non-empty, and each `_` stands between two digits |
| Exceptions.IsInstance | utils/nexus_queries.py:152-172 | an error is an instance of the class an `except` clause names exactly when that class is its own or one of its bases in `requests.exceptions` |
| Exceptions.MultipleBases | utils/nexus_queries.py:158-163 | `ConnectTimeout` is both a `ConnectionError` and a `Timeout` and no other caught class; `ReadTimeout` is a `Timeout` only |
| Exceptions.UncaughtClasses | utils/nexus_queries.py:152-172 | `RequestException`, `InvalidHeader`, `RetryError` and `InvalidProxyURL` match none of the five clauses |
| NexusQueries.FirstCatching | utils/nexus_queries.py:152-172 | finds the first `except` clause that catches the error, none before it catches, and none is found exactly when no clause catches |
| NexusQueries.Classify | utils/nexus_queries.py:152-172 | an error is handled exactly when some `except` clause of `query` catches it, by a clause of one of its base classes |
| NexusQueries.FirstClauseWins | utils/nexus_queries.py:152-172 | of several matching clauses, the first in source order handles the error |
| NexusQueries.ConnectionErrorsCaught | utils/nexus_queries.py:158-160 | every `ConnectionError` subclass, `ConnectTimeout` included, goes to the first clause |
| NexusQueries.ClassifyMatchesTable | utils/nexus_queries.py:152-172 | the handling of every class of `requests.exceptions`, `RequestException` itself included, agrees with an independent case-by-case table, including which exceptions escape |
| NexusQueries.ResolveRequest | utils/nexus_queries.py:143-150 | missing params and headers fall back to the object's; an explicit URL is the base URL followed by it; with no URL the object's own URL is used |
| NexusQueries.Dispatch | utils/nexus_queries.py:152-172 | an answer is passed on unchanged; an error some `except` clause catches becomes the empty response; any other error escapes unchanged |
| NexusQueries.Query | utils/nexus_queries.py:124-172 | a request function left `None` (the constructor default) raises `TypeError`, which no clause catches; otherwise the resolved request is sent, its answer is returned unchanged, an error some `except` clause catches gives the empty response, and any other error escapes as it is |
| NexusQueries.HandledNeverEscapes | utils/nexus_queries.py:152-172 | once a request is sent, an error that any `except` clause catches never leaves `query` |
| NexusQueries.ResolvedUrlIsInjective | utils/nexus_queries.py:147-150 | distinct relative paths give distinct request URLs |
| NexusQueries.Format | utils/nexus_queries.py:238 | `str.format` on named fields succeeds exactly when every field name is a keyword argument; otherwise it raises `KeyError` |
| NexusQueries.FilesTemplateAsWritten | utils/nexus_queries.py:238 | the `list_files` template filled with positional arguments raises `KeyError` |
| NexusQueries.DownloadLinkTemplateAsWritten | utils/nexus_queries.py:276-278 | the `generateLink` template filled with positional arguments raises `KeyError` |
| NexusQueries.FilesTemplateByName | utils/nexus_queries.py:238 | filled by name, the `list_files` template gives the file-list path |
| NexusQueries.DownloadLinkTemplateByName | utils/nexus_queries.py:276-278 | filled by name, the `generateLink` template gives the download-link path |
| NexusQueries.FilesPathShape | utils/nexus_queries.py:238 | the file-list path splits on `/` back into its five fields |
| NexusQueries.DownloadLinkPathShape | utils/nexus_queries.py:276-278 | the download-link path splits on `/` back into its seven fields |
| NexusQueries.ListFiles | utils/nexus_queries.py:207-243 | arguments left `None` fall back to the object's attributes; the object's `url` becomes the file-list path; the request uses the object's request function and goes to the base URL plus that path; the result is what `query` gives for that path |
| NexusQueries.GenerateLink | utils/nexus_queries.py:245-284 | arguments left `None` fall back to the object's attributes; the object's `url` becomes the download-link path; the request uses the object's request function and goes to the base URL plus that path; the result is what `query` gives for that path |
| NexusQueries.ListFilesExample | utils/nexus_queries.py:228-241 | mod 3863 of the object's domain `skyrim` is requested at `.../v1/games/skyrim/mods/3863/files.json` |
| NexusInterface.RequestHeaders | utils/nexus_interface.py:60-63 | the headers are exactly `apikey`, holding the authenticator's key, and `accept: application/json` |
| NexusInterface.SessionHeaders | utils/nexus_interface.py:47-63 | building the headers raises `AttributeError` exactly when the interface has no authenticator; otherwise they carry its key |
| NexusInterface.ValidateRequestShape | utils/nexus_interface.py:59-68 | validation is a GET of `users/validate.json` under the base URL with those headers and no parameters |
| NexusInterface.Authenticate | utils/nexus_interface.py:47-91 | a missing authenticator raises `AttributeError`; otherwise success exactly when the answer is 200 with a body; any other status gives an empty response, through `HTTPError` exactly for 400 to 599; the empty response of a handled transport error makes `raise_for_status` raise `TypeError`; an unhandled error escapes; a 200 without a body raises on decoding |
| NexusInterface.Decode | utils/nexus_interface.py:133 | `response.json()` gives the body when there is one and raises `JSONDecodeError` on an empty body; an exception that escaped `query` propagates |
| NexusInterface.CollectLastWins | utils/nexus_interface.py:131-134 | assigning keys in order leaves each key holding the value of its last assignment |
| NexusInterface.ImportFileList | utils/nexus_interface.py:145-188 | a missing authenticator raises `AttributeError`; otherwise the import succeeds exactly when every body decodes, a failed import raises the exception of the first body that does not decode, and the keys are exactly the requested ids |
| NexusInterface.FileListRequestShape | utils/nexus_interface.py:173-177 | the request for the i-th id is a GET of the file-list path of that id and domain, with the authenticator's headers |
| NexusInterface.FileListLastRequestWins | utils/nexus_interface.py:175-179 | a repeated id keeps the body of its last request |
| NexusInterface.ModInfoKey | utils/nexus_interface.py:134 | `decoded["mod_id"]` is found exactly for an object that has the key with a hashable value; a missing key raises `KeyError` |
| NexusInterface.ModInfoEntry | utils/nexus_interface.py:132-134 | one loop step succeeds exactly when the body decodes and has a usable `mod_id`; the entry is that id paired with the body |
| NexusInterface.ImportModInfo | utils/nexus_interface.py:112-134 | a missing authenticator raises `AttributeError`; a mod list that is neither an `int` (a `bool` counts) nor a `list` fails the assertion with `AssertionError`; otherwise the import succeeds exactly when every step succeeds, a failed import raises the exception of the first failing step, and the keys are exactly the bodies' `mod_id` values |
| NexusInterface.ModInfoLastBodyWins | utils/nexus_interface.py:131-134 | a body whose `mod_id` no later body holds is filed under that `mod_id` |
| NexusInterface.ModInfoSameIdCollapses | utils/nexus_interface.py:131-134 | two bodies with the same `mod_id` collapse into one entry holding the later body |
| ModDownload.MatchName | utils/mod_download.py:119-126 | `^.+(?=\?)` matches exactly when some non-empty prefix without a line feed is followed by `?`; the match is the longest such prefix; otherwise `ValueError` |
| ModDownload.GetModNameFromUrl | utils/mod_download.py:100-127 | the name is the match of the regex on the text after the last `/` |
| ModDownload.NameHasNoSlash | utils/mod_download.py:116-123 | an extracted name is non-empty and holds no `/` |
| ModDownload.NoMarkNoName | utils/mod_download.py:122-126 | a last segment with no `?` after its first character raises `ValueError` |
| ModDownload.NameBeforeQuery | utils/mod_download.py:116-123 | for a URL `prefix/name?query` the name is extracted exactly |
| ModDownload.DocExample | utils/mod_download.py:110-113 | the docstring URL gives `SkyUI_5_1-3863-5-1.7z` |
| ModDownload.FileName | utils/mod_download.py:82-87 | the file name is the extracted name, or the whole URL when extraction raises `ValueError` |
| ModDownload.WriteChunks | utils/mod_download.py:90-96 | the file holds the chunks in order: its length is the sum of theirs, and each chunk fits in it |
| ModDownload.ConcatLength | utils/mod_download.py:93-96 | the written length is the sum of the chunk lengths |
| ModDownload.DirName | utils/mod_download.py:78 | `os.path.dirname` is empty exactly for a path without `/`, and is always a prefix of the path |
| ModDownload.MadeDirs | utils/mod_download.py:78 | `os.makedirs(d)` leaves `d` existing, and every directory it creates is a prefix of `d` |
| ModDownload.OpenError | utils/mod_download.py:90 | a path that cannot be opened raises `IsADirectoryError` or `FileNotFoundError`; the empty path raises `FileNotFoundError`; a path without a trailing `/` raises `IsADirectoryError` exactly when it is a directory whose own directory exists |
| ModDownload.WriteBody | utils/mod_download.py:90-96 | the opened file holds exactly the chunks that arrived; no other file changes; a network exception propagates after the partial write |
| ModDownload.DownloadWithProgressBar | utils/mod_download.py:65-96 | a folder without `/` raises `FileNotFoundError` and the disk is unchanged; otherwise the folder's directory part is created; a path that cannot be opened raises `FileNotFoundError` or `IsADirectoryError` and no file changes; an opened path holds the chunks received, other files stay the same, and a network exception escapes |
| ModDownload.ExtractedNameOpens | utils/mod_download.py:78-90 | an extracted name always lands in the directory `os.makedirs` has just created |
| ModDownload.FallbackNameNeedsDirectory | utils/mod_download.py:82-90 | with the whole URL as the file name, a URL holding a `/` that neither starts nor ends it makes `open` raise `FileNotFoundError` unless the URL's own sub-directories already exist under the folder |
| ModDownload.EmptyUrlNamesTheFolder | utils/mod_download.py:46-90 | `download("")` with the default folder `mod_downloads/` takes the empty URL as the file name and raises `IsADirectoryError` when opening |
| ModDownload.Download | utils/mod_download.py:46-63 | exactly when there is no URL, or the folder is `None`, `AssertionError` is raised before the disk is touched; otherwise the disk and the outcome are those of `download_with_progress_bar` on the argument URL (the attribute only when the argument is `None`) and the argument folder |
| NexusBrowser.NewAsWritten | utils/nexus_browser.py:42-59 | a single id raises `TypeError` (exactly then); no id or no links store `None`; lists are stored; a single link leaves `links` unassigned |
| NexusBrowser.New | utils/nexus_browser.py:42-59 | a single id or a single link is stored as a one-element list; lists are stored as given |
| NexusBrowser.ConstructorsAgreeOnLists | utils/nexus_browser.py:42-59 | when lists are given, the constructor as written and the corrected one build the same object |
| NexusBrowser.SingleIdRaises | utils/nexus_browser.py:46-47 | a single id makes the written constructor raise, where the corrected one stores `[id]` |
| NexusBrowser.SingleLinkIsLost | utils/nexus_browser.py:51-54 | a single link is lost by the written constructor and kept as `[link]` by the corrected one |
| NexusBrowser.GenerateLinks | utils/nexus_browser.py:61-91 | a single id or `None` raises `TypeError`, whatever the domain; for a list and a known instance domain, one link per id in order, naming the id and the game id; for an unknown domain, an empty list for no ids and `NameError` otherwise |
| NexusBrowser.LinkNamesFileId | utils/nexus_browser.py:84-89 | the `id` field of a generated link reads back as its file id |
| NexusBrowser.LinksFollowIds | utils/nexus_browser.py:84-89 | distinct ids give distinct links |
| NexusBrowser.DomainArgumentIgnored | utils/nexus_browser.py:78-79 | the `domain_name` argument has no effect; only the instance's domain is used |
| NexusBrowser.GameTable | utils/nexus_browser.py:55-59 | the game ids are morrowind 100, skyrim 110 and oblivion 101, and no other domain is known |
| Text.SplitJoin | utils/mod_download.py:116 | joining pieces that hold no separator and splitting the result gives the pieces back |
| Text.JoinSplit | utils/mod_download.py:116 | splitting on a separator and joining with it gives the text back |
| Text.LastPieceIsLastSegment | utils/mod_download.py:116 | `url.split("/")[-1]` is the text after the last `/` |
| Wrappers.FirstFailureDecides | utils/nexus_interface.py:175-179 | a loop that stops at its first exception raises the exception of its first failing step |

## Left out

- Network I/O, `print` messages, the `tqdm` progress bar, and the `profile/*.json` files written by `authenticate`, `import_mod_info` and `import_file_list`. The network is the `send` parameter; the files have no effect on the results.
- `query` as written reads `self._query_type` and `self._headers`, but `__init__` sets `query_type` and `headers`, so every call raises `AttributeError`. The model uses the attributes `__init__` sets.
- `ModFileQuery.__init__` calls `super.__init__`, the builtin type rather than `super()`, so construction raises `TypeError`. The model builds the object the constructor means to build. `list_files` and `generateLink` call `super.query` for the same reason, and the model calls the inherited `query`.
- `generateLink` returns `respone`, an undefined name. The model returns the response.
- `generateLink` also asserts that the response is a `requests.Response`. That always holds, so the model leaves it out.
- `NexusInterface.ImportModInfo`: the game domain is not a parameter. It is taken to be a `str`, so its assertion always holds, and the `AssertionError` for a non-string domain is not modelled.
- `import_mod_info` calls `generate_mod_info`, a method `ModFileQuery` does not have. `NexusInterface.ImportModInfo` takes the list of responses as given and models the loop over them.
- `csv.Sniffer` dialect and header detection, and the CSV parser. `ModImport.FromCsvRows` takes the rows and the header flag as inputs. The `csv.Error` that `sniff` raises when it cannot find a delimiter, for example on an empty file, is therefore not modelled.
- `ModListImporter.from_excel` needs `openpyxl` workbooks.
- The final `list()` and `isinstance` check in `from_csv` always hold, so they are left out.
- `NexusBrowser.open_download_links` and the browser calls need a desktop browser.
- The `mod_downloader.py` front end, and a second `NexusInterface` class in `nexus_queries.py`. They duplicate the modelled core.
- `Exceptions.RequestsError`: the JSON error classes that later `requests` releases add to `requests.exceptions` (`InvalidJSONError` and its `JSONDecodeError`) are not listed; the decoding error of `response.json()` is the `JSONDecodeError` of the Python exceptions.
- Floating-point numbers in JSON bodies, and non-ASCII whitespace and digits accepted by `int()`. Bodies hold null, booleans, integers, strings, arrays and objects. `int()` is modelled on ASCII text.
- `ModDownload.WriteChunks`: a chunk of the `iter_content` stream is any byte string; the 1 MiB chunk size is not modelled.
- A `write_folder` without a trailing `/` is not corrected: the file path is the folder and the name concatenated, as in the source.
- `NexusInterface.ImportFileList`: takes the importer's list as a list of integers. The importer's constructor stores any value unchecked, and the source iterates whatever `mod_list` holds: a number or `None` raises `TypeError`, a string is iterated character by character, and a list of other values is requested by their `str()`. None of these is modelled.
- The text encoding of the key file is a parameter. The model does not fix a locale, and `FileSystem.Ascii` is only the encoding the examples use.
- Paths on the disk are compared as text, with no normalisation of `//`, `.` or `..`. A file standing where a directory is needed, permissions, and a trailing `/` on a path that is not a directory are not modelled.
- `from_csv` skips the header with `readline()`, which drops the first line of the file. The model drops the first row. The two differ only for a quoted header cell that spans lines.

## Findings

| source | as written | input that shows it | evidently intended | confidence | as-written member | corrected member |
|---|---|---|---|---|---|---|
| utils/nexus_browser.py:46-47 | `list(file_ids)` is applied to a single `int` | `NexusBrowser(file_ids=5)` raises `TypeError` | a single id is stored as `[5]`, as the `Union[int, List[int]]` hint promises | high; not executed | NexusBrowser.NewAsWritten | NexusBrowser.New |
| utils/nexus_browser.py:51-54 | a single link is only rebound to the local `links`; `self.links` is never assigned | `NexusBrowser(links="x").links` raises `AttributeError` | `self.links == ["x"]` | high; not executed | NexusBrowser.SingleLinkIsLost | NexusBrowser.New |
| utils/nexus_queries.py:238 | the named placeholders `{domain}` and `{mod_id}` are filled with positional arguments | `list_files("skyrim", 3863)` raises `KeyError: 'domain'` | the path `games/skyrim/mods/3863/files.json` | high; not executed | NexusQueries.FilesTemplateAsWritten | NexusQueries.FilesTemplateByName |
| utils/nexus_queries.py:276-278 | the same positional `format` on the `generateLink` template | `generateLink("skyrim", 3863, 1000)` raises `KeyError: 'domain'` | the path `games/skyrim/mods/3863/files/1000/download_link.json` | high; not executed | NexusQueries.DownloadLinkTemplateAsWritten | NexusQueries.DownloadLinkTemplateByName |

=== FILE: authorization.dfy ===
/** The API-key holder of utils/authorization.py. */
module Authorization {
  import opened Wrappers
  import opened Exceptions
  import opened PyValues
  import opened FileSystem
  import Text

  /** An `Authenticator`: its one attribute `_api_key` holds whatever object it was given. */
  datatype Authenticator = Authenticator(apiKey: PyValue)

  /** `Authenticator(key)`: the constructor stores its argument without any check. */
  function New(key: PyValue): (a: Authenticator)
    ensures ApiKey(a) == key
  {
    Authenticator(key)
  }

  /** `Authenticator()`: no key yet. */
  function Fresh(): (a: Authenticator)
    ensures ApiKey(a) == PyNone
  {
    New(PyNone)
  }

  /** The `api_key` property getter. */
  function ApiKey(a: Authenticator): PyValue {
    a.apiKey
  }

  /** The `api_key` property setter: asserts the new key is a `str`, and only then stores it. */
  function SetApiKey(a: Authenticator, key: PyValue): (r: Step<Authenticator, PyError>)
    ensures key.PyStr? ==> r.raised.None? && ApiKey(r.state) == key
    ensures !key.PyStr? ==> r.raised == Some(AssertionError) && r.state == a
  {
    if key.PyStr? then Step(Authenticator(key), None) else Step(a, Some(AssertionError))
  }

  /** `Authenticator.from_file(name)`: asserts `name` is an existing regular
      file, then the key is the file's whole text as text-mode reading returns
      it: decoded with the locale's encoding `locale`, which raises
      `UnicodeDecodeError` on bytes it cannot decode, then newline-translated. */
  function FromFile(disk: Disk, locale: Decoder, name: string): (r: Result<Authenticator, PyError>)
    ensures name !in disk.files <==> r == Failure(AssertionError)
    ensures name in disk.files && locale(disk.files[name]).None? <==> r == Failure(UnicodeDecodeError)
    ensures name in disk.files && locale(disk.files[name]).Some? ==>
      r == Success(Authenticator(PyStr(Text.UniversalNewlines(locale(disk.files[name]).value))))
  {
    if name !in disk.files then Failure(AssertionError)
    else
      match locale(disk.files[name])
      case None => Failure(UnicodeDecodeError)
      case Some(text) => Success(New(PyStr(Text.UniversalNewlines(text))))
  }

  /** Setting a string key and reading it back gives that key; a second set wins. */
  lemma SetThenGet(a: Authenticator, first: string, second: string)
    ensures ApiKey(SetApiKey(a, PyStr(first)).state) == PyStr(first)
    ensures ApiKey(SetApiKey(SetApiKey(a, PyStr(first)).state, PyStr(second)).state) == PyStr(second)
  {
  }

  /** A non-string key is refused and leaves the key that was there. */
  lemma RejectedKeyKeepsOld(a: Authenticator, key: PyValue)
    requires !key.PyStr?
    ensures ApiKey(SetApiKey(a, key).state) == ApiKey(a)
  {
  }

  /** A key file without carriage returns yields its exact decoded contents,
      with no trimming of surrounding whitespace or the final newline. */
  lemma FromFileKeepsContents(disk: Disk, locale: Decoder, name: string, text: string)
    requires name in disk.files && locale(disk.files[name]) == Some(text) && '\r' !in text
    ensures FromFile(disk, locale, name) == Success(Authenticator(PyStr(text)))
  {
    Text.UniversalNewlinesKeepsPlainText(text);
  }

  /** The bytes of `apikey`, and of `apikey` followed by a line feed. */
  const KeyBytes: seq<byte> := [97, 112, 105, 107, 101, 121]
  const KeyLineBytes: seq<byte> := KeyBytes + [10]

  /** The key file of the test suite: `"apikey"` is read back as `"apikey"`,
      and a final line feed is kept. */
  lemma FromFileExample()
    ensures FromFile(Disk({}, map["mockname" := KeyBytes]), Ascii, "mockname")
         == Success(Authenticator(PyStr("apikey")))
    ensures FromFile(Disk({}, map["mockname" := KeyLineBytes]), Ascii, "mockname")
         == Success(Authenticator(PyStr("apikey\n")))
  {
    AsciiSpells(KeyBytes, "apikey");
    AsciiSpells(KeyLineBytes, "apikey\n");
    FromFileKeepsContents(Disk({}, map["mockname" := KeyBytes]), Ascii, "mockname", "apikey");
    FromFileKeepsContents(Disk({}, map["mockname" := KeyLineBytes]), Ascii, "mockname", "apikey\n");
  }

  /** A key file holding a byte the encoding rejects raises `UnicodeDecodeError`. */
  lemma UndecodableKeyFile(disk: Disk, name: string, i: nat)
    requires name in disk.files && i < |disk.files[name]| && disk.files[name][i] >= 128
    ensures FromFile(disk, Ascii, name) == Failure(UnicodeDecodeError)
  {
  }
}

=== FILE: decimal.dfy ===
/** Python's `str(n)` and `int(s)` on base-10 integer text. */
module Decimal {
  import opened Wrappers

  predicate IsDigit(c: char) {
    '0' <= c <= '9'
  }

  function DigitValue(c: char): (d: nat)
    requires IsDigit(c)
    ensures d < 10
  {
    (c as int - '0' as int) as nat
  }

  function DigitChar(d: nat): (c: char)
    requires d < 10
    ensures IsDigit(c) && DigitValue(c) == d
  {
    (d + '0' as int) as char
  }

  /** The value of a string of decimal digits, most significant first. */
  function DigitsValue(ds: string): nat
    requires forall i :: 0 <= i < |ds| ==> IsDigit(ds[i])
  {
    if |ds| == 0 then 0 else 10 * DigitsValue(ds[..|ds| - 1]) + DigitValue(ds[|ds| - 1])
  }

  /** `str(n)` for a natural number: its shortest decimal representation. */
  function NatToString(n: nat): (ds: string)
    ensures |ds| >= 1
    ensures forall i :: 0 <= i < |ds| ==> IsDigit(ds[i])
    ensures |ds| > 1 ==> ds[0] != '0'
  {
    if n < 10 then [DigitChar(n)] else NatToString(n / 10) + [DigitChar(n % 10)]
  }

  /** `str(n)`: a minus sign before the digits of a negative number. */
  function IntToString(n: int): (s: string)
    ensures |s| >= 1
    ensures n < 0 <==> s[0] == '-'
    ensures forall i :: 0 <= i < |s| ==> IsDigit(s[i]) || (i == 0 && s[i] == '-')
  {
    if n < 0 then "-" + NatToString(-n) else NatToString(n)
  }

  /** The digits of `str(n)` denote `n`. */
  lemma {:induction false} NatToStringValue(n: nat)
    ensures DigitsValue(NatToString(n)) == n
  {
    if n >= 10 {
      NatToStringValue(n / 10);
      var ds := NatToString(n);
      assert ds[..|ds| - 1] == NatToString(n / 10);
    }
  }

  /** The whitespace `int()` skips around its argument (ASCII whitespace; the
      other Unicode spaces are not modelled). */
  predicate IsSpace(c: char) {
    c in {' ', '\t', '\n', '\r', '\U{000B}', '\U{000C}'}
  }

  function StripLeft(s: string): (t: string)
    ensures |t| <= |s| && t == s[|s| - |t|..]
    ensures |t| > 0 ==> !IsSpace(t[0])
    ensures forall i :: 0 <= i < |s| - |t| ==> IsSpace(s[i])
  {
    if |s| > 0 && IsSpace(s[0]) then StripLeft(s[1..]) else s
  }

  function StripRight(s: string): (t: string)
    ensures |t| <= |s| && t == s[..|t|]
    ensures |t| > 0 ==> !IsSpace(t[|t| - 1])
    ensures forall i :: |t| <= i < |s| ==> IsSpace(s[i])
  {
    if |s| > 0 && IsSpace(s[|s| - 1]) then StripRight(s[..|s| - 1]) else s
  }

  /** The text `int()` parses: `s` without the whitespace it skips at either end. */
  function Strip(s: string): string {
    StripRight(StripLeft(s))
  }

  /** The digit grammar `int()` accepts: digits, each `_` standing between two digits. */
  predicate WellFormedDigits(ds: string) {
    && |ds| > 0
    && IsDigit(ds[0])
    && IsDigit(ds[|ds| - 1])
    && forall i :: 0 <= i < |ds| ==> IsDigit(ds[i]) || (ds[i] == '_' && i + 1 < |ds| && IsDigit(ds[i + 1]))
  }

  /** The digits of `ds` with the underscores left out. */
  function DropUnderscores(ds: string): (r: string)
    requires forall i :: 0 <= i < |ds| ==> IsDigit(ds[i]) || ds[i] == '_'
    ensures forall i :: 0 <= i < |r| ==> IsDigit(r[i])
  {
    if |ds| == 0 then ""
    else if ds[|ds| - 1] == '_' then DropUnderscores(ds[..|ds| - 1])
    else DropUnderscores(ds[..|ds| - 1]) + [ds[|ds| - 1]]
  }

  lemma {:induction false} DropUnderscoresOfDigits(ds: string)
    requires forall i :: 0 <= i < |ds| ==> IsDigit(ds[i])
    ensures DropUnderscores(ds) == ds
  {
    if |ds| > 0 {
      DropUnderscoresOfDigits(ds[..|ds| - 1]);
    }
  }

  /** The value of the digit part of a literal, or `None` when `int()` rejects it. */
  function ParseDigits(ds: string): (r: Option<nat>)
    ensures r.Some? <==> WellFormedDigits(ds)
  {
    if WellFormedDigits(ds) then
      assert forall i | 0 <= i < |ds| :: IsDigit(ds[i]) || ds[i] == '_' by {
        forall i | 0 <= i < |ds| ensures IsDigit(ds[i]) || ds[i] == '_' {
          assert IsDigit(ds[i]) || (ds[i] == '_' && i + 1 < |ds| && IsDigit(ds[i + 1]));
        }
      }
      Some(DigitsValue(DropUnderscores(ds)))
    else None
  }

  /** `int(s)` in base 10: surrounding whitespace, an optional sign, then digits;
      `None` where Python raises `ValueError`. */
  function ParseInt(s: string): (r: Option<int>)
    ensures r.Some? ==> var t := Strip(s); |t| > 0 && (IsDigit(t[0]) || t[0] in {'+', '-'})
  {
    var t := Strip(s);
    if |t| > 0 && t[0] == '-' then
      match ParseDigits(t[1..])
      case Some(v) => Some(-(v as int))
      case None => None
    else if |t| > 0 && t[0] == '+' then
      ParseDigits(t[1..])
    else
      ParseDigits(t)
  }

  /** Text that neither starts nor ends with whitespace has none for `int()` to skip. */
  lemma StripUnspaced(s: string)
    requires |s| > 0 && !IsSpace(s[0]) && !IsSpace(s[|s| - 1])
    ensures Strip(s) == s
  {
  }

  /** The digits `str(m)` produces are parsed back to `m`. */
  lemma ParseDigitsOfNat(m: nat)
    ensures ParseDigits(NatToString(m)) == Some(m)
  {
    var ds := NatToString(m);
    NatToStringValue(m);
    DropUnderscoresOfDigits(ds);
    assert WellFormedDigits(ds);
  }

  /** `int(str(n)) == n` for every integer `n`. */
  lemma ParseIntToString(n: int)
    ensures ParseInt(IntToString(n)) == Some(n)
  {
    var m: nat := if n < 0 then -n else n;
    var s := IntToString(n);
    StripUnspaced(s);
    ParseDigitsOfNat(m);
    if n < 0 {
      assert s[1..] == NatToString(m);
    } else {
      assert s == NatToString(m);
    }
  }

  /** `str(3863) == "3863"`. */
  lemma IntToStringExample()
    ensures IntToString(3863) == "3863"
  {
    assert NatToString(3) == "3";
    assert NatToString(38) == "38";
    assert NatToString(386) == "386";
  }
}

=== FILE: exceptions.dfy ===
/** The exceptions the modelled code can raise or catch. */
module Exceptions {

  /** The exception classes of `requests.exceptions` a request can raise,
      `RequestException`, the root of them all, included. */
  datatype RequestsError =
    | RequestException
    | ConnectionError
    | ProxyError
    | SSLError
    | Timeout
    | ConnectTimeout
    | ReadTimeout
    | TooManyRedirects
    | HTTPError
    | URLRequired
    | MissingSchema
    | InvalidSchema
    | InvalidURL
    | InvalidHeader
    | InvalidProxyURL
    | ChunkedEncodingError
    | ContentDecodingError
    | StreamConsumedError
    | RetryError
    | UnrewindableBodyError

  /** The base classes named by the `except` clauses of `NexusQuery.query`. */
  datatype Handler = CatchConnectionError | CatchTimeout | CatchTooManyRedirects | CatchHTTPError | CatchURLRequired

  /** The direct base classes of each exception class, as `requests.exceptions`
      declares them, among the classes modelled here (`IOError`, `ValueError`
      and the other builtin bases are omitted). */
  function Bases(e: RequestsError): set<RequestsError> {
    match e
    case RequestException => {}
    case ProxyError => {ConnectionError}
    case SSLError => {ConnectionError}
    case ConnectTimeout => {ConnectionError, Timeout}
    case ReadTimeout => {Timeout}
    case InvalidProxyURL => {InvalidURL}
    case _ => {RequestException}
  }

  /** The class an `except` clause names. */
  function Caught(h: Handler): RequestsError {
    match h
    case CatchConnectionError => ConnectionError
    case CatchTimeout => Timeout
    case CatchTooManyRedirects => TooManyRedirects
    case CatchHTTPError => HTTPError
    case CatchURLRequired => URLRequired
  }

  /** `isinstance(error, handler)` under the class hierarchy of `requests.exceptions`,
      written out clause by clause. Every caught class derives directly from
      `RequestException`, and no subclass of one is more than one level below
      it, so an error is an instance exactly when the class is its own or a
      direct base. */
  function IsInstance(e: RequestsError, h: Handler): (b: bool)
    ensures b <==> Caught(h) == e || Caught(h) in Bases(e)
  {
    match h
    case CatchConnectionError => e.ConnectionError? || e.ProxyError? || e.SSLError? || e.ConnectTimeout?
    case CatchTimeout => e.Timeout? || e.ConnectTimeout? || e.ReadTimeout?
    case CatchTooManyRedirects => e.TooManyRedirects?
    case CatchHTTPError => e.HTTPError?
    case CatchURLRequired => e.URLRequired?
  }

  /** `ConnectTimeout` has two bases and is an instance of both; `ReadTimeout`
      is a `Timeout` but not a `ConnectionError`. */
  lemma MultipleBases()
    ensures IsInstance(ConnectTimeout, CatchConnectionError) && IsInstance(ConnectTimeout, CatchTimeout)
    ensures IsInstance(ReadTimeout, CatchTimeout) && !IsInstance(ReadTimeout, CatchConnectionError)
    ensures forall h :: IsInstance(ConnectTimeout, h) <==> h == CatchConnectionError || h == CatchTimeout
  {
  }

  /** Python exceptions that escape a modelled operation. */
  datatype PyError =
    | AssertionError
    | TypeError
    | ValueError
    | KeyError
    | IndexError
    | NameError
    | AttributeError
    | UnicodeDecodeError
    | FileNotFoundError
    | IsADirectoryError
    | JSONDecodeError
    | Requests(error: RequestsError)

  /** The root class and the classes outside the five caught families
      (`InvalidHeader`, `RetryError`, `InvalidProxyURL` among them) match no
      clause. */
  lemma UncaughtClasses(h: Handler)
    ensures !IsInstance(RequestException, h) && !IsInstance(InvalidHeader, h)
    ensures !IsInstance(RetryError, h) && !IsInstance(InvalidProxyURL, h)
  {
  }
}

=== FILE: file_system.dfy ===
/** The disk the core reads and writes, shared by the key file of
    utils/authorization.py and the downloads of utils/mod_download.py. */
module FileSystem {
  import opened Wrappers

  /** A byte of a file. */
  newtype byte = x: int | 0 <= x < 256

  /** The disk: the directories that exist and the regular files with their
      bytes, each by its path as written (paths are not normalised). */
  datatype Disk = Disk(dirs: set<string>, files: map<string, seq<byte>>)

  /** A text encoding as `open(name, 'r')` applies it: the decoded text, or
      `None` when the bytes are not valid in the encoding. */
  type Decoder = seq<byte> -> Option<string>

  /** The ASCII encoding: bytes below 128 decode to the character of that code. */
  function Ascii(b: seq<byte>): (t: Option<string>)
    ensures t.Some? <==> forall i :: 0 <= i < |b| ==> b[i] < 128
    ensures t.Some? ==> |t.value| == |b| && forall i :: 0 <= i < |b| ==> t.value[i] as int == b[i] as int
  {
    if |b| == 0 then Some("")
    else if b[0] >= 128 then None
    else
      match Ascii(b[1..])
      case None => None
      case Some(rest) => Some([b[0] as int as char] + rest)
  }

  /** Bytes that spell out an ASCII text decode to that text. */
  lemma AsciiSpells(b: seq<byte>, s: string)
    requires |b| == |s| && forall i :: 0 <= i < |s| ==> b[i] as int == s[i] as int < 128
    ensures Ascii(b) == Some(s)
  {
    assert forall i :: 0 <= i < |b| ==> b[i] < 128;
    var t := Ascii(b).value;
    assert forall i :: 0 <= i < |s| ==> t[i] as int == s[i] as int;
    assert forall i :: 0 <= i < |s| ==> t[i] == s[i];
    assert t == s;
  }
}

=== FILE: mod_download.dfy ===
/** File-name resolution and the streamed write of utils/mod_download.py. */
module ModDownload {
  import opened Wrappers
  import opened Exceptions
  import opened FileSystem
  import Text

  /** The index of the first line feed of `s`, or `|s|` when it has none:
      the regex `.` stops there. */
  function FirstNewline(s: string): (k: nat)
    ensures k <= |s| && '\n' !in s[..k]
    ensures k < |s| ==> s[k] == '\n'
  {
    if |s| == 0 then 0
    else if s[0] == '\n' then 0
    else
      var k := FirstNewline(s[1..]);
      assert s[..k + 1] == [s[0]] + s[1..][..k];
      k + 1
  }

  /** The largest `j` with `1 <= j < limit` and `s[j] == '?'`. */
  function LastMarkBefore(s: string, limit: nat): (j: Option<nat>)
    requires limit <= |s|
    ensures j.Some? ==> 1 <= j.value < limit && s[j.value] == '?'
    ensures j.Some? ==> forall i :: j.value < i < limit ==> s[i] != '?'
    ensures j.None? ==> forall i :: 1 <= i < limit ==> s[i] != '?'
  {
    if limit <= 1 then None
    else if s[limit - 1] == '?' then Some(limit - 1)
    else LastMarkBefore(s, limit - 1)
  }

  /** `p` is a match of `^.+(?=\?)` at the start of `segment`: a non-empty
      prefix without line feeds that is followed by `?`. */
  ghost predicate RegexMatch(segment: string, p: string) {
    0 < |p| < |segment| && segment[..|p|] == p && '\n' !in p && segment[|p|] == '?'
  }

  /** The search of `^.+(?=\?)` in one segment: the greedy `.+` makes the
      match the longest such prefix; `ValueError` when there is none. */
  function MatchName(segment: string): (r: Result<string, PyError>)
    ensures r.Success? <==> exists n :: 0 < n < |segment| && RegexMatch(segment, segment[..n])
    ensures r.Success? ==> RegexMatch(segment, r.value)
    ensures r.Success? ==> forall n :: 0 < n < |segment| && RegexMatch(segment, segment[..n]) ==> n <= |r.value|
    ensures r.Failure? ==> r.error == ValueError
  {
    var limit := FirstNewline(segment);
    match LastMarkBefore(segment, limit)
    case None =>
      assert forall n :: 0 < n < |segment| && RegexMatch(segment, segment[..n]) ==> false by {
        forall n | 0 < n < |segment| && RegexMatch(segment, segment[..n]) ensures false {
          MatchEndsBeforeNewline(segment, n);
        }
      }
      Failure(ValueError)
    case Some(j) =>
      assert RegexMatch(segment, segment[..j]);
      assert forall n :: 0 < n < |segment| && RegexMatch(segment, segment[..n]) ==> n <= j by {
        forall n | 0 < n < |segment| && RegexMatch(segment, segment[..n]) ensures n <= j {
          MatchEndsBeforeNewline(segment, n);
        }
      }
      Success(segment[..j])
  }

  /** `get_mod_name_from_url(url)`: the match in the text after the last `/`. */
  function GetModNameFromUrl(url: string): (r: Result<string, PyError>)
    ensures var segment := Text.LastSegment(url, '/');
      && (r.Success? <==> exists n :: 0 < n < |segment| && RegexMatch(segment, segment[..n]))
      && (r.Success? ==> RegexMatch(segment, r.value))
      && (r.Success? ==> forall n :: 0 < n < |segment| && RegexMatch(segment, segment[..n]) ==> n <= |r.value|)
      && (r.Failure? ==> r.error == ValueError)
  {
    MatchName(Text.LastSegment(url, '/'))
  }

  /** A match ends on a `?` before the first line feed. */
  lemma MatchEndsBeforeNewline(segment: string, n: nat)
    requires 0 < n < |segment| && RegexMatch(segment, segment[..n])
    ensures n < FirstNewline(segment) && segment[n] == '?'
  {
  }

  /** The extracted name is never empty and never holds a `/`. */
  lemma NameHasNoSlash(url: string)
    requires GetModNameFromUrl(url).Success?
    ensures |GetModNameFromUrl(url).value| > 0 && '/' !in GetModNameFromUrl(url).value
  {
    var segment := Text.LastSegment(url, '/');
    var name := GetModNameFromUrl(url).value;
    assert name == segment[..|name|];
    assert forall i :: 0 <= i < |name| ==> name[i] == segment[i];
  }

  /** A segment with no `?` after its first character (before any line feed)
      has no name: a `?` in first position cannot end a non-empty match. */
  lemma NoMarkNoName(url: string)
    requires var segment := Text.LastSegment(url, '/');
      forall i :: 1 <= i < |segment| ==> segment[i] != '?'
    ensures GetModNameFromUrl(url) == Failure(ValueError)
  {
  }

  /** The search finds the `?` that no later `?` follows. */
  lemma LastMarkIs(s: string, limit: nat, k: nat)
    requires 1 <= k < limit <= |s| && s[k] == '?'
    requires forall i :: k < i < limit ==> s[i] != '?'
    ensures LastMarkBefore(s, limit) == Some(k)
  {
  }

  /** A segment made of a name and a query string: the match is the name. */
  lemma NameBeforeMark(name: string, query: string)
    requires |name| > 0 && '?' !in query && '\n' !in name && '\n' !in query
    ensures MatchName(name + "?" + query) == Success(name)
  {
    var segment := name + "?" + query;
    assert '\n' !in segment;
    assert FirstNewline(segment) == |segment|;
    assert segment[|name|] == '?';
    assert forall i :: |name| < i < |segment| ==> segment[i] == query[i - |name| - 1];
    LastMarkIs(segment, |segment|, |name|);
    assert segment[..|name|] == name;
  }

  /** A URL whose last segment is a name and a query string: the name is
      everything before the query string's `?`. */
  lemma NameBeforeQuery(prefix: string, name: string, query: string)
    requires |name| > 0 && '/' !in name && '/' !in query
    requires '?' !in query && '\n' !in name && '\n' !in query
    ensures GetModNameFromUrl(prefix + "/" + name + "?" + query) == Success(name)
  {
    var segment := name + "?" + query;
    assert prefix + "/" + name + "?" + query == prefix + ['/'] + segment;
    assert '/' !in segment;
    Text.LastSegmentAfter(prefix, '/', segment);
    NameBeforeMark(name, query);
  }

  /** A query string with none of the characters that would move the match. */
  predicate PlainQuery(q: string) {
    '/' !in q && '?' !in q && '\n' !in q
  }

  /** The query string of the docstring example holds no `/`, `?` or line
      feed; it is checked field by field. */
  lemma DocQueryIsPlain()
    ensures PlainQuery("md5=5yKmT54-6qBhgCjAYwUuxg" + "&expires=1552787172" + "&user_id=522107" + "&rip=31.183.199.94")
  {
    var q1, q2, q3, q4 := "md5=5yKmT54-6qBhgCjAYwUuxg", "&expires=1552787172", "&user_id=522107", "&rip=31.183.199.94";
    Md5FieldIsPlain();
    ExpiresFieldIsPlain();
    UserFieldIsPlain();
    RipFieldIsPlain();
    AbsentFromPieces('/', q1, q2, q3, q4);
    AbsentFromPieces('?', q1, q2, q3, q4);
    AbsentFromPieces('\n', q1, q2, q3, q4);
  }

  lemma Md5FieldIsPlain() ensures PlainQuery("md5=5yKmT54-6qBhgCjAYwUuxg") {}
  lemma ExpiresFieldIsPlain() ensures PlainQuery("&expires=1552787172") {}
  lemma UserFieldIsPlain() ensures PlainQuery("&user_id=522107") {}
  lemma RipFieldIsPlain() ensures PlainQuery("&rip=31.183.199.94") {}

  /** A character absent from four pieces is absent from their concatenation. */
  lemma AbsentFromPieces(c: char, q1: string, q2: string, q3: string, q4: string)
    requires c !in q1 && c !in q2 && c !in q3 && c !in q4
    ensures c !in q1 + q2 + q3 + q4
  {
  }

  lemma DocNameIsPlain()
    ensures '/' !in "SkyUI_5_1-3863-5-1.7z" && '\n' !in "SkyUI_5_1-3863-5-1.7z"
  {
  }

  /** The example of the docstring of `get_mod_name_from_url`, its URL
      written in pieces as the docstring writes it. */
  lemma DocExample()
    ensures GetModNameFromUrl("https://files.nexus-cdn.com/110/3863" + "/" + "SkyUI_5_1-3863-5-1.7z" + "?"
                              + ("md5=5yKmT54-6qBhgCjAYwUuxg" + "&expires=1552787172" + "&user_id=522107" + "&rip=31.183.199.94"))
         == Success("SkyUI_5_1-3863-5-1.7z")
  {
    DocQueryIsPlain();
    DocNameIsPlain();
    NameBeforeQuery("https://files.nexus-cdn.com/110/3863", "SkyUI_5_1-3863-5-1.7z",
                    "md5=5yKmT54-6qBhgCjAYwUuxg" + "&expires=1552787172" + "&user_id=522107" + "&rip=31.183.199.94");
  }

  /** The name the download is written under: the extracted name, or the
      whole URL when extraction raises `ValueError`. */
  function FileName(url: string): (name: string)
    ensures GetModNameFromUrl(url).Success? ==> name == GetModNameFromUrl(url).value
    ensures GetModNameFromUrl(url).Failure? ==> name == url
  {
    match GetModNameFromUrl(url)
    case Success(n) => n
    case Failure(_) => url
  }

  /** The bytes of the chunks, in order. */
  function Concat(chunks: seq<seq<byte>>): seq<byte> {
    if |chunks| == 0 then [] else Concat(chunks[..|chunks| - 1]) + chunks[|chunks| - 1]
  }

  /** The sum of the chunk lengths. */
  function TotalLength(chunks: seq<seq<byte>>): nat {
    if |chunks| == 0 then 0 else |chunks[0]| + TotalLength(chunks[1..])
  }

  lemma {:induction false} ConcatCons(c: seq<byte>, chunks: seq<seq<byte>>)
    ensures Concat([c] + chunks) == c + Concat(chunks)
    decreases |chunks|
  {
    if |chunks| > 0 {
      var n := |chunks| - 1;
      assert ([c] + chunks)[..n + 1] == [c] + chunks[..n];
      ConcatCons(c, chunks[..n]);
    }
  }

  /** The written file is as long as all chunks together. */
  lemma {:induction false} ConcatLength(chunks: seq<seq<byte>>)
    ensures |Concat(chunks)| == TotalLength(chunks)
  {
    if |chunks| > 0 {
      ConcatCons(chunks[0], chunks[1..]);
      assert chunks == [chunks[0]] + chunks[1..];
      ConcatLength(chunks[1..]);
    }
  }

  /** The `with open(path, "wb")` block: the file is truncated on opening,
      then every chunk is written in the order it is received. */
  method WriteChunks(chunks: seq<seq<byte>>) returns (content: seq<byte>)
    ensures content == Concat(chunks)
    ensures |content| == TotalLength(chunks)
    ensures forall i :: 0 <= i < |chunks| ==> |chunks[i]| <= |content|
  {
    content := [];
    var i := 0;
    while i < |chunks|
      invariant 0 <= i <= |chunks|
      invariant content == Concat(chunks[..i])
    {
      content := content + chunks[i];
      i := i + 1;
      assert chunks[..i][..i - 1] == chunks[..i - 1];
    }
    assert chunks[..|chunks|] == chunks;
    ConcatLength(chunks);
    forall i | 0 <= i < |chunks| ensures |chunks[i]| <= |content| {
      ChunkWithin(chunks, i);
    }
  }

  lemma {:induction false} ChunkWithin(chunks: seq<seq<byte>>, i: nat)
    requires i < |chunks|
    ensures |chunks[i]| <= |Concat(chunks)|
  {
    var n := |chunks| - 1;
    if i < n {
      ChunkWithin(chunks[..n], i);
    }
  }

  /** `s` without its trailing `/`s. */
  function TrimSlashes(s: string): (t: string)
    ensures |t| <= |s| && t == s[..|t|]
    ensures forall i :: |t| <= i < |s| ==> s[i] == '/'
    ensures |t| > 0 ==> t[|t| - 1] != '/'
  {
    if |s| == 0 || s[|s| - 1] != '/' then s else TrimSlashes(s[..|s| - 1])
  }

  predicate AllSlashes(s: string) {
    forall i :: 0 <= i < |s| ==> s[i] == '/'
  }

  /** The directory named by the text up to and including a path's last
      `/`: without its trailing `/`s, unless it is nothing but `/`s. */
  function HeadDir(head: string): (d: string)
    requires |head| > 0 && head[|head| - 1] == '/'
    ensures 0 < |d| <= |head| && d == head[..|d|]
    ensures forall i :: 0 <= i < |head| && head[i] != '/' ==> i < |d|
  {
    if AllSlashes(head) then head else TrimSlashes(head)
  }

  /** `os.path.dirname(p)`. */
  function DirName(p: string): (d: string)
    ensures '/' !in p <==> d == ""
    ensures |d| <= |p| && d == p[..|d|]
  {
    match Text.LastIndexOf(p, '/')
    case None => ""
    case Some(k) => HeadDir(p[..k + 1])
  }

  /** A name without `/` does not change the directory part of a path. */
  lemma DirNameOfJoined(folder: string, name: string)
    requires '/' in folder && '/' !in name
    ensures DirName(folder + name) == DirName(folder)
  {
    Text.LastIndexOfAppend(folder, '/', name);
    var k := Text.LastIndexOf(folder, '/').value;
    assert (folder + name)[..k + 1] == folder[..k + 1];
  }

  /** The directories `os.makedirs(d)` leaves behind: `d` and every prefix of
      it that ends before a `/`. */
  function MadeDirs(d: string): (made: set<string>)
    ensures d != "" ==> d in made
    ensures forall m :: m in made ==> 0 < |m| <= |d| && m == d[..|m|]
  {
    assert d != "" ==> d[..|d|] == d;
    set i | 0 < i <= |d| && (i == |d| || d[i] == '/') :: d[..i]
  }

  /** The directory `open` looks a path up in exists (the empty one is the
      working directory). */
  predicate DirExists(dirs: set<string>, d: string) {
    d == "" || d in dirs
  }

  /** `open(path, "wb")` succeeds: the path is not empty, its directory part
      exists, and it names no directory, neither one on the disk nor, by a
      trailing `/`, one to be created. */
  predicate CanOpen(dirs: set<string>, path: string) {
    path != "" && path[|path| - 1] != '/' && DirExists(dirs, DirName(path)) && path !in dirs
  }

  /** The error `open(path, "wb")` raises when it cannot open the path: a path
      with a trailing `/` is looked up without it, and once its directory is
      found it can only be a directory. */
  function OpenError(dirs: set<string>, path: string): (e: PyError)
    ensures e == IsADirectoryError || e == FileNotFoundError
    ensures path == "" ==> e == FileNotFoundError
    ensures path != "" && path[|path| - 1] != '/' ==>
      (e == IsADirectoryError <==> path in dirs && DirExists(dirs, DirName(path)))
  {
    if path == "" then FileNotFoundError
    else if path[|path| - 1] == '/' then
      if DirExists(dirs, DirName(TrimSlashes(path))) then IsADirectoryError else FileNotFoundError
    else if path in dirs && DirExists(dirs, DirName(path)) then IsADirectoryError
    else FileNotFoundError
  }

  /** The body `requests.get(url, stream=True)` streams: the chunks that
      arrive, then possibly an exception (raised by `requests.get` itself when
      no chunk arrived, or by the stream part-way). */
  datatype Body = Body(chunks: seq<seq<byte>>, failure: Option<RequestsError>)

  /** How a download ends: the disk afterwards, and the path written or the
      exception raised. */
  datatype DownloadResult = DownloadResult(disk: Disk, outcome: Result<string, PyError>)

  /** What downloading `url` into `writeFolder` does to `disk`: a folder
      without `/` raises `FileNotFoundError` and changes nothing; otherwise the
      folder's directory part is created; a path that cannot be opened raises
      and no file changes; an opened path ends up holding exactly the chunks
      that arrived, no other file changes, and a network exception escapes. */
  predicate DownloadsInto(disk: Disk, url: string, writeFolder: string, body: Body, r: DownloadResult) {
    var path := writeFolder + FileName(url);
    && ('/' !in writeFolder ==> r == DownloadResult(disk, Failure(FileNotFoundError)))
    && ('/' in writeFolder ==> r.disk.dirs == disk.dirs + MadeDirs(DirName(writeFolder)))
    && ('/' in writeFolder && !CanOpen(r.disk.dirs, path) ==>
          r.outcome == Failure(OpenError(r.disk.dirs, path)) && r.disk.files == disk.files)
    && ('/' in writeFolder && CanOpen(r.disk.dirs, path) ==>
          && r.disk.files.Keys == disk.files.Keys + {path}
          && r.disk.files[path] == Concat(body.chunks)
          && (forall p :: p in disk.files && p != path ==> r.disk.files[p] == disk.files[p])
          && r.outcome == (if body.failure.Some? then Failure(Requests(body.failure.value)) else Success(path)))
  }

  /** `download_with_progress_bar(url, write_folder)`. The directory part of
      the folder is created with `os.makedirs`, which raises
      `FileNotFoundError` when the folder has no `/` (its directory part is
      empty). The file `write_folder + name` is opened for writing, which
      creates or truncates it, before the request is sent; every chunk that
      arrives is then written, and an exception from the network leaves the
      chunks received so far in the file. */
  method DownloadWithProgressBar(disk: Disk, url: string, writeFolder: string, body: Body)
    returns (r: DownloadResult)
    ensures DownloadsInto(disk, url, writeFolder, body, r)
  {
    var dir := DirName(writeFolder);
    if dir == "" {
      return DownloadResult(disk, Failure(FileNotFoundError));
    }
    var dirs := disk.dirs + MadeDirs(dir);
    var path := writeFolder + FileName(url);
    if !CanOpen(dirs, path) {
      return DownloadResult(Disk(dirs, disk.files), Failure(OpenError(dirs, path)));
    }
    var files, outcome := WriteBody(disk.files, path, body);
    r := DownloadResult(Disk(dirs, files), outcome);
  }

  /** The `with open(path, "wb")` block once the file is open: the file holds
      the chunks that arrived, and a network exception propagates. */
  method WriteBody(files: map<string, seq<byte>>, path: string, body: Body)
    returns (written: map<string, seq<byte>>, outcome: Result<string, PyError>)
    ensures written.Keys == files.Keys + {path}
    ensures written[path] == Concat(body.chunks)
    ensures forall p :: p in files && p != path ==> written[p] == files[p]
    ensures outcome == (if body.failure.Some? then Failure(Requests(body.failure.value)) else Success(path))
  {
    var content := WriteChunks(body.chunks);
    written := files[path := content];
    outcome := if body.failure.Some? then Failure(Requests(body.failure.value)) else Success(path);
  }

  /** When a name is extracted, the file goes into the folder `os.makedirs`
      has just created, so it opens unless a directory has that very path. */
  lemma ExtractedNameOpens(disk: Disk, url: string, writeFolder: string)
    requires '/' in writeFolder && GetModNameFromUrl(url).Success?
    requires writeFolder + GetModNameFromUrl(url).value !in disk.dirs
    ensures CanOpen(disk.dirs + MadeDirs(DirName(writeFolder)), writeFolder + FileName(url))
  {
    var name := GetModNameFromUrl(url).value;
    NameHasNoSlash(url);
    DirNameOfJoined(writeFolder, name);
    var dir := DirName(writeFolder);
    assert dir in MadeDirs(dir);
    assert |writeFolder + name| > |writeFolder| >= |dir|;
  }

  /** When no name is extracted, the whole URL becomes the file name; a URL
      holding a `/` (and not starting with one) then names a file in a
      sub-directory of the folder that `os.makedirs` did not create, and
      unless that directory already exists `open` raises `FileNotFoundError`. */
  lemma FallbackNameNeedsDirectory(disk: Disk, url: string, writeFolder: string)
    requires '/' in writeFolder && GetModNameFromUrl(url).Failure?
    requires '/' in url && url[0] != '/' && url[|url| - 1] != '/'
    requires DirName(writeFolder + url) !in disk.dirs
    ensures !CanOpen(disk.dirs + MadeDirs(DirName(writeFolder)), writeFolder + FileName(url))
    ensures OpenError(disk.dirs + MadeDirs(DirName(writeFolder)), writeFolder + FileName(url)) == FileNotFoundError
  {
    FallbackDirIsDeeper(writeFolder, url);
    var made := MadeDirs(DirName(writeFolder));
    assert DirName(writeFolder + url) !in made;
  }

  /** The directory part of `folder + url` reaches into `url` when `url` holds
      a `/` and does not start with one. */
  lemma FallbackDirIsDeeper(writeFolder: string, url: string)
    requires '/' in url && url[0] != '/'
    ensures |DirName(writeFolder + url)| > |writeFolder|
  {
    var path := writeFolder + url;
    var j :| 0 <= j < |url| && url[j] == '/';
    assert path[|writeFolder| + j] == '/';
    var k := Text.LastIndexOf(path, '/').value;
    assert path[..k + 1][|writeFolder|] == url[0];
  }

  /** `download("")`: the empty URL has no name and is its own file name, so
      the path is the default folder itself, which `open` refuses with
      `IsADirectoryError` whatever the disk holds. */
  lemma EmptyUrlNamesTheFolder(disk: Disk)
    ensures FileName("") == ""
    ensures var dirs := disk.dirs + MadeDirs(DirName(DefaultWriteFolder));
      !CanOpen(dirs, DefaultWriteFolder + FileName("")) && OpenError(dirs, DefaultWriteFolder + FileName("")) == IsADirectoryError
  {
    EmptyUrlHasNoName();
    DefaultFolderIsTopLevel();
    var path := DefaultWriteFolder + FileName("");
    assert path == DefaultWriteFolder;
    SlashEndedPathIsADirectory(disk.dirs + MadeDirs(DirName(DefaultWriteFolder)), path);
  }

  /** A path with a trailing `/` whose directory part exists names a directory. */
  lemma SlashEndedPathIsADirectory(dirs: set<string>, path: string)
    requires path != "" && path[|path| - 1] == '/' && DirExists(dirs, DirName(TrimSlashes(path)))
    ensures !CanOpen(dirs, path) && OpenError(dirs, path) == IsADirectoryError
  {
  }

  /** The empty URL has no name, so it is its own file name. */
  lemma EmptyUrlHasNoName()
    ensures FileName("") == ""
  {
    NoMarkNoName("");
  }

  /** Without its trailing `/`, the default folder has no directory part. */
  lemma DefaultFolderIsTopLevel()
    ensures DirName(TrimSlashes(DefaultWriteFolder)) == ""
  {
    var trimmed := TrimSlashes(DefaultWriteFolder);
    assert trimmed == "mod_downloads";
    assert '/' !in trimmed;
  }

  /** A `FileDownloader`: the URL it downloads by default and its folder
      attribute, which `download` never reads. */
  datatype FileDownloader = FileDownloader(url: Option<string>, writeFolder: string)

  /** The folder `download` writes to when none is given. */
  const DefaultWriteFolder: string := "mod_downloads/"

  /** `FileDownloader.download(url, write_folder)`: a missing url falls back to
      the instance's; both must then be strings (`None` fails the assertion,
      before anything touches the disk). The folder comes from the argument
      (default `"mod_downloads/"`), never from the instance. */
  method Download(d: FileDownloader, disk: Disk, url: Option<string>, writeFolder: Option<string>,
                  body: Body) returns (r: DownloadResult)
    ensures (url.None? && d.url.None?) || writeFolder.None? <==> r == DownloadResult(disk, Failure(AssertionError))
    ensures (url.Some? || d.url.Some?) && writeFolder.Some? ==>
      DownloadsInto(disk, if url.Some? then url.value else d.url.value, writeFolder.value, body, r)
    ensures r.outcome.Success? ==> writeFolder.Some? && r.outcome.value in r.disk.files
    ensures r.outcome.Success? ==>
      r.outcome.value == writeFolder.value + FileName(if url.Some? then url.value else d.url.value)
    ensures r.outcome.Success? ==> r.disk.files[r.outcome.value] == Concat(body.chunks)
  {
    var u := if url.None? then d.url else url;
    if u.None? || writeFolder.None? {
      return DownloadResult(disk, Failure(AssertionError));
    }
    r := DownloadWithProgressBar(disk, u.value, writeFolder.value, body);
  }
}

=== FILE: mod_import.dfy ===
/** The mod-id list holder of utils/mod_import.py and its CSV reader. */
module ModImport {
  import opened Wrappers
  import opened Exceptions
  import opened PyValues
  import opened Decimal

  /** A `ModListImporter`: its attribute `_mod_list`. */
  datatype ModListImporter = ModListImporter(modList: PyValue)

  /** `ModListImporter(mod_list)`: `None` becomes an empty list (through the
      property setter, which accepts it); any other value is stored as it is,
      bypassing the setter's check. */
  function New(arg: PyValue): (m: ModListImporter)
    ensures arg == PyNone ==> ModList(m) == PyList([])
    ensures arg != PyNone ==> ModList(m) == arg
  {
    if arg == PyNone then SetModList(ModListImporter(PyNone), PyList([])).state else ModListImporter(arg)
  }

  /** The `mod_list` property getter. */
  function ModList(m: ModListImporter): PyValue {
    m.modList
  }

  /** The `mod_list` property setter: asserts the value is a `list`, and only then stores it. */
  function SetModList(m: ModListImporter, v: PyValue): (r: Step<ModListImporter, PyError>)
    ensures v.PyList? ==> r.raised.None? && ModList(r.state) == v
    ensures !v.PyList? ==> r.raised == Some(AssertionError) && r.state == m
  {
    if v.PyList? then Step(ModListImporter(v), None) else Step(m, Some(AssertionError))
  }

  /** `row[column]` with Python's indexing: a negative column counts from the end. */
  function Cell(row: seq<string>, column: int): (c: Option<string>)
    ensures c.Some? <==> -|row| <= column < |row|
    ensures 0 <= column < |row| ==> c == Some(row[column])
    ensures -|row| <= column < 0 ==> c == Some(row[|row| + column])
  {
    if 0 <= column < |row| then Some(row[column])
    else if -|row| <= column < 0 then Some(row[|row| + column])
    else None
  }

  /** `int(row[column])` for one row: `IndexError` for a short row, `ValueError`
      for a cell that is not an integer literal. */
  function RowId(row: seq<string>, column: int): (r: Result<int, PyError>)
    ensures r.Success? <==> Cell(row, column).Some? && ParseInt(Cell(row, column).value).Some?
    ensures r.Success? ==> r.value == ParseInt(Cell(row, column).value).value
    ensures Cell(row, column).None? ==> r == Failure(IndexError)
    ensures Cell(row, column).Some? && ParseInt(Cell(row, column).value).None? ==> r == Failure(ValueError)
  {
    match Cell(row, column)
    case None => Failure(IndexError)
    case Some(text) =>
      match ParseInt(text)
      case None => Failure(ValueError)
      case Some(id) => Success(id)
  }

  /** The ids of the loop of `from_csv`, row by row. */
  function RowIds(rows: seq<seq<string>>, column: int): (rs: seq<Result<int, PyError>>)
    ensures |rs| == |rows| && forall i :: 0 <= i < |rows| ==> rs[i] == RowId(rows[i], column)
  {
    seq(|rows|, i requires 0 <= i < |rows| => RowId(rows[i], column))
  }

  /** The loop of `from_csv` over the rows the CSV reader yields: one id per
      row, in row order; the first row that fails ends the import with its error. */
  function ExtractIds(rows: seq<seq<string>>, column: int): (r: Result<seq<int>, PyError>)
    ensures r.Success? <==> forall i :: 0 <= i < |rows| ==> RowId(rows[i], column).Success?
    ensures r.Success? ==> |r.value| == |rows|
    ensures r.Success? ==> forall i :: 0 <= i < |rows| ==> ParseInt(Cell(rows[i], column).value) == Some(r.value[i])
  {
    Sequence(RowIds(rows, column))
  }

  /** The first row without an integer id decides the error, whatever follows it. */
  lemma FirstBadRowDecides(rows: seq<seq<string>>, column: int, i: nat)
    requires i < |rows| && RowId(rows[i], column).Failure?
    requires forall j :: 0 <= j < i ==> RowId(rows[j], column).Success?
    ensures ExtractIds(rows, column) == Failure(RowId(rows[i], column).error)
  {
    var rs := RowIds(rows, column);
    assert AllSucceed(rs[..i]);
    FirstFailureDecides(rs, i);
  }

  /** `ModListImporter.from_csv(file, modid_column)` once the file is split into
      rows: when the sniffer reports a header line it is skipped, every other
      row contributes `int(row[modid_column])`. */
  function FromCsvRows(rows: seq<seq<string>>, hasHeader: bool, column: int): (r: Result<ModListImporter, PyError>)
    ensures var data := if hasHeader && |rows| > 0 then rows[1..] else rows;
      match ExtractIds(data, column)
      case Success(ids) => r.Success? && ModList(r.value) == PyList(IntList(ids))
      case Failure(e) => r == Failure(e)
  {
    var data := if hasHeader && |rows| > 0 then rows[1..] else rows;
    match ExtractIds(data, column)
    case Success(ids) => Success(New(PyList(IntList(ids))))
    case Failure(e) => Failure(e)
  }

  /** A sequence of integers as a Python list of `int`s. */
  function IntList(ids: seq<int>): (l: seq<PyValue>)
    ensures |l| == |ids|
    ensures forall i :: 0 <= i < |ids| ==> l[i] == PyInt(ids[i])
  {
    seq(|ids|, i requires 0 <= i < |ids| => PyInt(ids[i]))
  }

  /** A column of ids written with `str()` and read back by `from_csv` gives the ids back. */
  lemma ExtractIdsRoundTrip(ids: seq<int>, rows: seq<seq<string>>, column: nat)
    requires |rows| == |ids|
    requires forall i :: 0 <= i < |rows| ==> column < |rows[i]| && rows[i][column] == IntToString(ids[i])
    ensures ExtractIds(rows, column) == Success(ids)
  {
    forall i | 0 <= i < |rows| ensures RowId(rows[i], column) == Success(ids[i]) {
      ParseIntToString(ids[i]);
    }
    var r := ExtractIds(rows, column);
    assert r.Success?;
    assert r.value == ids;
  }

  /** The default list is empty; a set list is read back; the last set wins;
      a non-list is refused and the list stays. */
  lemma ModListProperty(l1: seq<PyValue>, l2: seq<PyValue>, bad: PyValue)
    requires !bad.PyList?
    ensures ModList(New(PyNone)) == PyList([])
    ensures ModList(SetModList(New(PyNone), PyList(l1)).state) == PyList(l1)
    ensures ModList(SetModList(SetModList(New(PyNone), PyList(l1)).state, PyList(l2)).state) == PyList(l2)
    ensures ModList(SetModList(New(PyList(l1)), bad).state) == PyList(l1)
  {
  }

  /** The ids column of the test suite's CSV, read as data. */
  lemma ExtractIdsExample()
    ensures ExtractIds([["1", "abc"], ["2", "def"]], 0) == Success([1, 2])
  {
    assert IntToString(1) == "1" && IntToString(2) == "2";
    ExtractIdsRoundTrip([1, 2], [["1", "abc"], ["2", "def"]], 0);
  }

  /** With a header, the first row is skipped and the rest is read as data. */
  lemma FromCsvSkipsHeader(header: seq<string>, data: seq<seq<string>>, column: nat)
    ensures FromCsvRows([header] + data, true, column) == FromCsvRows(data, false, column)
  {
    assert ([header] + data)[1..] == data;
  }

  /** The CSV of the test suite: with the header detected the ids are `[1, 2]`. */
  lemma FromCsvWithHeader()
    ensures var r := FromCsvRows([["modids", "names"], ["1", "abc"], ["2", "def"]], true, 0);
      r.Success? && ModList(r.value) == PyList([PyInt(1), PyInt(2)])
  {
    TestCsvSplits();
    FromCsvSkipsHeader(["modids", "names"], [["1", "abc"], ["2", "def"]], 0);
    TestDataIds();
  }

  /** The test suite's CSV is its header row followed by its data rows. */
  lemma TestCsvSplits()
    ensures [["modids", "names"]] + [["1", "abc"], ["2", "def"]] == [["modids", "names"], ["1", "abc"], ["2", "def"]]
  {
  }

  /** The data rows of the test suite's CSV give the list `[1, 2]`. */
  lemma TestDataIds()
    ensures var r := FromCsvRows([["1", "abc"], ["2", "def"]], false, 0);
      r.Success? && ModList(r.value) == PyList([PyInt(1), PyInt(2)])
  {
    ExtractIdsExample();
    IntListExample();
    ReadAsData([["1", "abc"], ["2", "def"]], 0, [1, 2], [PyInt(1), PyInt(2)]);
  }

  /** Rows whose ids are extracted import as the list of those ids. */
  lemma ReadAsData(rows: seq<seq<string>>, column: int, ids: seq<int>, list: seq<PyValue>)
    requires ExtractIds(rows, column) == Success(ids) && IntList(ids) == list
    ensures var r := FromCsvRows(rows, false, column); r.Success? && ModList(r.value) == PyList(list)
  {
  }

  /** The ids `[1, 2]` as a Python list. */
  lemma IntListExample()
    ensures IntList([1, 2]) == [PyInt(1), PyInt(2)]
  {
  }

  /** `int("modids")` raises `ValueError`. */
  lemma HeaderCellIsNotAnInt()
    ensures ParseInt("modids") == None
  {
    LetterIsNotAnInt("modids");
  }

  /** Text that starts with neither a digit, a sign nor whitespace is not an integer. */
  lemma LetterIsNotAnInt(s: string)
    requires |s| > 0 && !IsSpace(s[0]) && !IsSpace(s[|s| - 1])
    requires !IsDigit(s[0]) && s[0] != '+' && s[0] != '-'
    ensures ParseInt(s) == None
  {
    StripUnspaced(s);
  }

  /** Read as data, the header cell `"modids"` is not an integer and the import fails. */
  lemma FromCsvHeaderAsData()
    ensures FromCsvRows([["modids", "names"], ["1", "abc"], ["2", "def"]], false, 0) == Failure(ValueError)
  {
    var rows := [["modids", "names"], ["1", "abc"], ["2", "def"]];
    assert RowId(rows[0], 0) == Failure(ValueError) by {
      assert Cell(rows[0], 0) == Some("modids");
      HeaderCellIsNotAnInt();
    }
    FirstBadRowDecides(rows, 0, 0);
  }
}

=== FILE: nexus_browser.dfy ===
/** Download-page links of utils/nexus_browser.py. */
module NexusBrowser {
  import opened Wrappers
  import opened Exceptions
  import opened Decimal

  /** `file_ids` as the constructor accepts it: `None`, one id, or a list. */
  datatype FileIdsArg = NoFileIds | OneFileId(id: int) | FileIdList(ids: seq<int>)

  /** `links` as the constructor accepts it: `None`, one link, or a list. */
  datatype LinksArg = NoLinks | OneLink(link: string) | LinkList(links: seq<string>)

  /** The `links` attribute: never assigned, or assigned `None` or a list. */
  datatype LinksAttr = Unassigned | Assigned(links: Option<seq<string>>)

  /** A `NexusBrowser`. */
  datatype NexusBrowser = NexusBrowser(fileIds: Option<seq<int>>, domainName: Option<string>, links: LinksAttr)

  /** `_games_dict`: the game ids of the supported domains. */
  const GamesDict: map<string, int> := map["morrowind" := 100, "skyrim" := 110, "oblivion" := 101]

  /** `NexusBrowser(file_ids, domain_name, links)` as written: `list(file_ids)`
      raises `TypeError` for a single id, and a single link is only rebound to
      the local `links`, so the attribute is never assigned. */
  function NewAsWritten(fileIds: FileIdsArg, domainName: Option<string>, links: LinksArg): (r: Result<NexusBrowser, PyError>)
    ensures fileIds.OneFileId? <==> r == Failure(TypeError)
    ensures r.Success? ==> r.value.domainName == domainName
    ensures r.Success? && fileIds.NoFileIds? ==> r.value.fileIds == None
    ensures r.Success? && fileIds.FileIdList? ==> r.value.fileIds == Some(fileIds.ids)
    ensures r.Success? && links.NoLinks? ==> r.value.links == Assigned(None)
    ensures r.Success? && links.OneLink? ==> r.value.links == Unassigned
    ensures r.Success? && links.LinkList? ==> r.value.links == Assigned(Some(links.links))
  {
    var attr := match links
      case NoLinks => Assigned(None)
      case OneLink(_) => Unassigned
      case LinkList(ls) => Assigned(Some(ls));
    match fileIds
    case OneFileId(_) => Failure(TypeError)
    case NoFileIds => Success(NexusBrowser(None, domainName, attr))
    case FileIdList(ids) => Success(NexusBrowser(Some(ids), domainName, attr))
  }

  /** The constructor as its signature promises: a single id or a single link
      is stored as a one-element list. */
  function New(fileIds: FileIdsArg, domainName: Option<string>, links: LinksArg): (b: NexusBrowser)
    ensures b.domainName == domainName
    ensures fileIds.NoFileIds? <==> b.fileIds.None?
    ensures fileIds.OneFileId? ==> b.fileIds == Some([fileIds.id])
    ensures fileIds.FileIdList? ==> b.fileIds == Some(fileIds.ids)
    ensures b.links.Assigned? && (links.NoLinks? <==> b.links.links.None?)
    ensures links.OneLink? ==> b.links == Assigned(Some([links.link]))
    ensures links.LinkList? ==> b.links == Assigned(Some(links.links))
  {
    var ids := match fileIds
      case NoFileIds => None
      case OneFileId(id) => Some([id])
      case FileIdList(ids) => Some(ids);
    var attr := match links
      case NoLinks => None
      case OneLink(l) => Some([l])
      case LinkList(ls) => Some(ls);
    NexusBrowser(ids, domainName, Assigned(attr))
  }

  /** Where a list is given the two constructors agree, and the only two
      inputs where they differ are a single id and a single link. */
  lemma ConstructorsAgreeOnLists(ids: seq<int>, domainName: Option<string>, links: Option<seq<string>>)
    ensures var arg := if links.Some? then LinkList(links.value) else NoLinks;
      NewAsWritten(FileIdList(ids), domainName, arg) == Success(New(FileIdList(ids), domainName, arg))
  {
  }

  /** A single id makes the written constructor raise. */
  lemma SingleIdRaises(id: int, domainName: Option<string>)
    ensures NewAsWritten(OneFileId(id), domainName, NoLinks) == Failure(TypeError)
    ensures New(OneFileId(id), domainName, NoLinks).fileIds == Some([id])
  {
  }

  /** A single link is lost by the written constructor. */
  lemma SingleLinkIsLost(link: string)
    ensures NewAsWritten(NoFileIds, None, OneLink(link)).value.links == Unassigned
    ensures New(NoFileIds, None, OneLink(link)).links == Assigned(Some([link]))
  {
  }

  const LinkPrefix: string := "https://www.nexusmods.com/Core/Libs/Common/Widgets/DownloadPopUp?id="
  const GameIdField: string := "&game_id="
  const LinkSuffix: string := "&source=FileExpander"

  /** The download-page link of one file. */
  function DownloadPageLink(fileId: int, gameId: int): string {
    LinkPrefix + IntToString(fileId) + GameIdField + IntToString(gameId) + LinkSuffix
  }

  /** `_generate_downloadpage_links_from_file_ids(file_ids, domain_name)`: the
      game id is looked up by the instance's `domain_name`, never the argument.
      An unknown domain leaves `game_id` without a value; the list
      comprehension reads it when it builds its first link and raises
      `NameError` (`UnboundLocalError`, its subclass, from Python 3.12 on), so
      an empty id list still yields an empty list. The comprehension first
      iterates `file_ids`, so a single id or `None` raises `TypeError`
      whatever the domain. */
  function GenerateLinks(b: NexusBrowser, fileIds: FileIdsArg, domainName: string): (r: Result<seq<string>, PyError>)
    ensures !fileIds.FileIdList? ==> r == Failure(TypeError)
    ensures fileIds.FileIdList? ==> var ids := fileIds.ids;
      var known := b.domainName.Some? && b.domainName.value in GamesDict;
      && (r.Success? <==> known || |ids| == 0)
      && (r.Failure? ==> r.error == NameError)
      && (r.Success? ==> |r.value| == |ids|)
      && (r.Success? && known ==> forall i :: 0 <= i < |ids| ==>
            r.value[i] == DownloadPageLink(ids[i], GamesDict[b.domainName.value]))
  {
    match fileIds
    case FileIdList(ids) =>
      if b.domainName.Some? && b.domainName.value in GamesDict then
        var gameId := GamesDict[b.domainName.value];
        Success(seq(|ids|, i requires 0 <= i < |ids| => DownloadPageLink(ids[i], gameId)))
      else if |ids| == 0 then Success([])
      else Failure(NameError)
    case _ => Failure(TypeError)
  }

  /** The text between the first `?id=` field and the next `&`: the file id of a link. */
  function LinkFileId(link: string): (r: Option<int>)
  {
    if |link| >= |LinkPrefix| && link[..|LinkPrefix|] == LinkPrefix then
      ParseInt(UpTo(link[|LinkPrefix|..], '&'))
    else None
  }

  /** The prefix of `s` before the first `c`. */
  function UpTo(s: string, c: char): (t: string)
    ensures |t| <= |s| && t == s[..|t|] && c !in t
    ensures |t| < |s| ==> s[|t|] == c
  {
    if |s| == 0 || s[0] == c then "" else
      var t := UpTo(s[1..], c);
      assert [s[0]] + t == s[..|t| + 1];
      [s[0]] + t
  }

  lemma UpToStops(a: string, c: char, b: string)
    requires c !in a
    ensures UpTo(a + [c] + b, c) == a
  {
    var s := a + [c] + b;
    var t := UpTo(s, c);
    assert s[|a|] == c;
    assert s[..|a|] == a;
  }

  /** A link is the prefix, the file id, then `&` and the rest of the fields. */
  lemma LinkSplits(fileId: int, gameId: int)
    ensures var link := DownloadPageLink(fileId, gameId);
      && |link| >= |LinkPrefix| && link[..|LinkPrefix|] == LinkPrefix
      && link[|LinkPrefix|..] == IntToString(fileId) + ['&'] + (GameIdField[1..] + IntToString(gameId) + LinkSuffix)
  {
    FieldsShape(LinkPrefix, IntToString(fileId), GameIdField, IntToString(gameId), LinkSuffix);
  }

  lemma FieldsShape<T>(p: seq<T>, d: seq<T>, g: seq<T>, x: seq<T>, y: seq<T>)
    requires |g| >= 1
    ensures (p + d + g + x + y)[..|p|] == p
    ensures (p + d + g + x + y)[|p|..] == d + [g[0]] + (g[1..] + x + y)
  {
    assert g == [g[0]] + g[1..];
  }

  /** Every link names its own file id: reading the `id` field back gives it. */
  lemma LinkNamesFileId(fileId: int, gameId: int)
    ensures LinkFileId(DownloadPageLink(fileId, gameId)) == Some(fileId)
  {
    var digits := IntToString(fileId);
    var rest := GameIdField[1..] + IntToString(gameId) + LinkSuffix;
    LinkSplits(fileId, gameId);
    UpToStops(digits, '&', rest);
    ParseIntToString(fileId);
  }

  /** The `domain_name` argument is ignored: only the instance's domain matters. */
  lemma DomainArgumentIgnored(b: NexusBrowser, fileIds: FileIdsArg, d1: string, d2: string)
    ensures GenerateLinks(b, fileIds, d1) == GenerateLinks(b, fileIds, d2)
  {
  }

  /** The links for a known domain are in file-id order and each names its
      file, so distinct ids give distinct links. */
  lemma LinksFollowIds(b: NexusBrowser, fileIds: seq<int>, domainName: string, i: nat, j: nat)
    requires b.domainName.Some? && b.domainName.value in GamesDict
    requires i < |fileIds| && j < |fileIds| && fileIds[i] != fileIds[j]
    ensures GenerateLinks(b, FileIdList(fileIds), domainName).value[i]
         != GenerateLinks(b, FileIdList(fileIds), domainName).value[j]
  {
    var g := GamesDict[b.domainName.value];
    LinkNamesFileId(fileIds[i], g);
    LinkNamesFileId(fileIds[j], g);
  }

  /** The game table: Morrowind is 100, Skyrim 110 and Oblivion 101. */
  lemma GameTable()
    ensures GamesDict.Keys == {"morrowind", "skyrim", "oblivion"}
    ensures GamesDict["morrowind"] == 100 && GamesDict["skyrim"] == 110 && GamesDict["oblivion"] == 101
  {
  }
}

=== FILE: nexus_interface.dfy ===
/** The session-level operations of utils/nexus_interface.py: key validation
    and the batched imports of mod infos and file lists. */
module NexusInterface {
  import opened Wrappers
  import opened Exceptions
  import opened PyValues
  import opened NexusQueries
  import opened Authorization
  import Decimal

  /** A `NexusInterface`: the authenticator whose key signs every request,
      `None` when the constructor was given none. */
  datatype NexusInterface = NexusInterface(authenticator: Option<Authenticator>)

  /** The header dictionary every request of this class carries. */
  function RequestHeaders(a: Authenticator): (h: Headers)
    ensures h.Keys == {"apikey", "accept"}
    ensures h["apikey"] == ApiKey(a) && h["accept"] == PyStr("application/json")
  {
    map["apikey" := ApiKey(a), "accept" := PyStr("application/json")]
  }

  /** The headers every method builds first: reading `api_key` of a missing
      authenticator raises `AttributeError`. */
  function SessionHeaders(n: NexusInterface): (h: Result<Headers, PyError>)
    ensures n.authenticator.None? <==> h == Failure(AttributeError)
    ensures n.authenticator.Some? ==> h == Success(RequestHeaders(n.authenticator.value))
  {
    match n.authenticator
    case None => Failure(AttributeError)
    case Some(a) => Success(RequestHeaders(a))
  }

  /** The endpoint that validates a key. */
  const ValidatePath: string := "users/validate.json"

  /** How `authenticate` ends: with the validated response and the user
      profile it writes, with an empty response, or with an exception. */
  datatype AuthResult =
    | Authenticated(response: Response, profile: Json)
    | Rejected(response: Response, byRaiseForStatus: bool)
    | AuthRaised(error: PyError)

  /** The validation request `authenticate` sends. */
  function ValidateRequest(a: Authenticator): Request {
    var h := RequestHeaders(a);
    ResolveRequest(NexusQuery(None, Some(Get), None, Some(h)), Some(ValidatePath), None, Some(h))
  }

  /** `NexusInterface.authenticate()`: a status from 400 to 599 makes
      `raise_for_status` raise `HTTPError`, which is turned into an empty
      response; any other status but 200 also gives an empty response; a 200
      body is decoded and saved as the user profile. An empty response from
      `query` has no status, and comparing it in `raise_for_status` raises `TypeError`. */
  function Authenticate(n: NexusInterface, send: Request -> Transport): (r: AuthResult)
    ensures n.authenticator.None? ==> r == AuthRaised(AttributeError)
    ensures n.authenticator.Some? ==> var t := send(ValidateRequest(n.authenticator.value));
      && (r.Authenticated? <==> t.Answered? && t.response.status == Some(200) && t.response.body.Some?)
      && (r.Authenticated? ==> r.response == t.response && r.profile == t.response.body.value)
      && (r.Rejected? <==> t.Answered? && t.response.status.Some? && t.response.status.value != 200)
      && (r.Rejected? ==> r.response == EmptyResponse)
      && (r.Rejected? ==> (r.byRaiseForStatus <==> 400 <= t.response.status.value < 600))
      && (t.Threw? && Classify(t.error).None? ==> r == AuthRaised(Requests(t.error)))
      && (t.Threw? && Classify(t.error).Some? ==> r == AuthRaised(TypeError))
      && (t.Answered? && t.response.status.None? ==> r == AuthRaised(TypeError))
      && (t.Answered? && t.response.status == Some(200) && t.response.body.None? ==> r == AuthRaised(JSONDecodeError))
  {
    match SessionHeaders(n)
    case Failure(e) => AuthRaised(e)
    case Success(h) =>
      match Query(NexusQuery(None, Some(Get), None, Some(h)), Some(ValidatePath), None, Some(h), send)
      case Raised(e) => AuthRaised(e)
      case Returned(resp) =>
        match resp.status
        case None => AuthRaised(TypeError)
        case Some(code) =>
          if 400 <= code < 600 then Rejected(EmptyResponse, true)
          else if code != 200 then Rejected(EmptyResponse, false)
          else
            match resp.body
            case None => AuthRaised(JSONDecodeError)
            case Some(j) => Authenticated(resp, j)
  }

  /** The validation request goes to `users/validate.json` under the base URL,
      with exactly the key and accept headers and no parameters. */
  lemma ValidateRequestShape(a: Authenticator)
    ensures ValidateRequest(a).url == Some(BaseUrl + ValidatePath)
    ensures ValidateRequest(a).headers == Some(map["apikey" := ApiKey(a),
                                                   "accept" := PyStr("application/json")])
    ensures ValidateRequest(a).params == None && ValidateRequest(a).verb == Some(Get)
  {
  }

  /** `response.json()`: the decoded body, or the exception that escapes. */
  function Decode(r: QueryResult): (d: Result<Json, PyError>)
    ensures d.Success? <==> r.Returned? && r.response.body.Some?
    ensures d.Success? ==> d.value == r.response.body.value
    ensures r.Raised? ==> d == Failure(r.error)
    ensures r.Returned? && r.response.body.None? ==> d == Failure(JSONDecodeError)
  {
    match r
    case Raised(e) => Failure(e)
    case Returned(resp) =>
      match resp.body
      case None => Failure(JSONDecodeError)
      case Some(j) => Success(j)
  }

  /** The dictionary built by assigning `m[keys[i]] = values[i]` for each `i` in order. */
  function Collect<K, V>(keys: seq<K>, values: seq<V>): (m: map<K, V>)
    requires |keys| == |values|
    ensures m.Keys == set i | 0 <= i < |keys| :: keys[i]
  {
    if |keys| == 0 then map[]
    else
      var n := |keys| - 1;
      var m := Collect(keys[..n], values[..n])[keys[n] := values[n]];
      assert forall i :: 0 <= i < n ==> keys[..n][i] == keys[i];
      m
  }

  /** Each key ends up holding the value of its last assignment, so a later
      duplicate overwrites an earlier one. */
  lemma {:induction false} CollectLastWins<K, V>(keys: seq<K>, values: seq<V>, i: nat)
    requires |keys| == |values| && i < |keys|
    requires forall j :: i < j < |keys| ==> keys[j] != keys[i]
    ensures keys[i] in Collect(keys, values) && Collect(keys, values)[keys[i]] == values[i]
  {
    var n := |keys| - 1;
    if i < n {
      assert keys[..n][i] == keys[i];
      CollectLastWins(keys[..n], values[..n], i);
    }
  }

  /** The `ModFileQuery` that `import_file_list` drives. */
  function FileListQuery(a: Authenticator, domain: string): ModFileQuery {
    ModFileQuery(NexusQuery(None, Some(Get), None, Some(RequestHeaders(a))), Some(domain), None, None)
  }

  /** The calls of the loop of `import_file_list`, the `i`-th answered by `send(i, request)`. */
  function FileListCalls(a: Authenticator, ids: seq<int>, domain: string,
                         send: (nat, Request) -> Transport): (cs: seq<ModFileCall>)
    ensures |cs| == |ids|
    ensures forall i :: 0 <= i < |ids| ==>
      cs[i] == ListFiles(FileListQuery(a, domain), None, Some(ids[i]), None, None, req => send(i, req))
  {
    seq(|ids|, i requires 0 <= i < |ids| =>
      ListFiles(FileListQuery(a, domain), None, Some(ids[i]), None, None, req => send(i, req)))
  }

  /** The decoded bodies of the calls, one per call. */
  function DecodeAll(cs: seq<ModFileCall>): (ds: seq<Result<Json, PyError>>)
    ensures |ds| == |cs| && forall i :: 0 <= i < |cs| ==> ds[i] == Decode(cs[i].result)
  {
    seq(|cs|, i requires 0 <= i < |cs| => Decode(cs[i].result))
  }

  /** `NexusInterface.import_file_list(importer, domain_name)` with the
      importer's list `ids`: a missing authenticator raises `AttributeError`
      before any request; otherwise every body is decoded in order, the first
      that fails to decode ends the import, and the dictionary is keyed by the
      requested id. */
  function ImportFileList(n: NexusInterface, ids: seq<int>, domain: string,
                          send: (nat, Request) -> Transport): (r: Result<map<int, Json>, PyError>)
    ensures n.authenticator.None? ==> r == Failure(AttributeError)
    ensures n.authenticator.Some? ==> var ds := DecodeAll(FileListCalls(n.authenticator.value, ids, domain, send));
      && (r.Success? <==> AllSucceed(ds))
      && (r.Failure? ==> exists k :: 0 <= k < |ds| && AllSucceed(ds[..k]) && ds[k] == Failure(r.error))
    ensures r.Success? ==> r.value.Keys == set i | 0 <= i < |ids| :: ids[i]
  {
    match n.authenticator
    case None => Failure(AttributeError)
    case Some(a) =>
      match Sequence(DecodeAll(FileListCalls(a, ids, domain, send)))
      case Failure(e) => Failure(e)
      case Success(bodies) => Success(Collect(ids, bodies))
  }

  /** Every request of `import_file_list` asks for `games/<domain>/mods/<id>/files.json`
      under the base URL, with the session headers. */
  lemma FileListRequestShape(a: Authenticator, ids: seq<int>, domain: string,
                             send: (nat, Request) -> Transport, i: nat)
    requires i < |ids|
    ensures var c := FileListCalls(a, ids, domain, send)[i];
      && c.request.url == Some(BaseUrl + FilesPath(domain, Decimal.IntToString(ids[i])))
      && c.request.headers == Some(RequestHeaders(a))
      && c.request.params == None
      && c.request.verb == Some(Get)
  {
  }

  /** The file list stored under a requested id is the body answered to the
      last request for that id. */
  lemma FileListLastRequestWins(n: NexusInterface, ids: seq<int>, domain: string,
                                send: (nat, Request) -> Transport, i: nat)
    requires i < |ids| && ImportFileList(n, ids, domain, send).Success?
    requires forall j :: i < j < |ids| ==> ids[j] != ids[i]
    ensures ImportFileList(n, ids, domain, send).value[ids[i]]
         == Decode(FileListCalls(n.authenticator.value, ids, domain, send)[i].result).value
  {
    var bodies := Sequence(DecodeAll(FileListCalls(n.authenticator.value, ids, domain, send))).value;
    CollectLastWins(ids, bodies, i);
  }

  /** `decoded["mod_id"]`: the key `import_mod_info` files a body under. */
  function ModInfoKey(j: Json): (k: Result<DictKey, PyError>)
    ensures k.Success? <==> j.JObject? && "mod_id" in j.fields && KeyOf(j.fields["mod_id"]).Some?
    ensures k.Success? ==> k.value == KeyOf(j.fields["mod_id"]).value
    ensures j.JObject? && "mod_id" !in j.fields ==> k == Failure(KeyError)
  {
    match j
    case JObject(fields) =>
      if "mod_id" !in fields then Failure(KeyError)
      else
        (match KeyOf(fields["mod_id"])
         case None => Failure(TypeError)
         case Some(key) => Success(key))
    case _ => Failure(TypeError)
  }

  /** One iteration of the loop of `import_mod_info`: decode, then look up `mod_id`. */
  function ModInfoEntry(r: QueryResult): (e: Result<(DictKey, Json), PyError>)
    ensures e.Success? <==> Decode(r).Success? && ModInfoKey(Decode(r).value).Success?
    ensures e.Success? ==> e.value == (ModInfoKey(Decode(r).value).value, Decode(r).value)
  {
    match Decode(r)
    case Failure(err) => Failure(err)
    case Success(j) =>
      match ModInfoKey(j)
      case Failure(err) => Failure(err)
      case Success(k) => Success((k, j))
  }

  /** The loop iterations of `import_mod_info`, one per response. */
  function ModInfoEntries(responses: seq<QueryResult>): (es: seq<Result<(DictKey, Json), PyError>>)
    ensures |es| == |responses| && forall i :: 0 <= i < |responses| ==> es[i] == ModInfoEntry(responses[i])
  {
    seq(|responses|, i requires 0 <= i < |responses| => ModInfoEntry(responses[i]))
  }

  /** `NexusInterface.import_mod_info` with the importer's list `modList` and
      the list of responses it obtains: a missing authenticator raises
      `AttributeError` first; a list that is neither an `int` (a `bool` is one)
      nor a `list` fails its assertion; each decoded body is filed under its
      own `mod_id`, not under the id that was requested; the first body that
      fails ends the import. */
  function ImportModInfo(n: NexusInterface, modList: PyValue, responses: seq<QueryResult>): (r: Result<map<DictKey, Json>, PyError>)
    ensures n.authenticator.None? ==> r == Failure(AttributeError)
    ensures n.authenticator.Some? && !(modList.PyInt? || modList.PyBool? || modList.PyList?) ==> r == Failure(AssertionError)
    ensures n.authenticator.Some? && (modList.PyInt? || modList.PyBool? || modList.PyList?) ==> var es := ModInfoEntries(responses);
      && (r.Success? <==> AllSucceed(es))
      && (r.Failure? ==> exists k :: 0 <= k < |es| && AllSucceed(es[..k]) && es[k] == Failure(r.error))
    ensures r.Success? ==> r.value.Keys == set i | 0 <= i < |responses| :: ModInfoEntry(responses[i]).value.0
  {
    if n.authenticator.None? then Failure(AttributeError)
    else if !IsModIds(modList) then Failure(AssertionError)
    else
      var entries := ModInfoEntries(responses);
      match Sequence(entries)
      case Failure(e) => Failure(e)
      case Success(pairs) =>
        var keys := seq(|pairs|, i requires 0 <= i < |pairs| => pairs[i].0);
        var bodies := seq(|pairs|, i requires 0 <= i < |pairs| => pairs[i].1);
        assert forall i :: 0 <= i < |responses| ==> keys[i] == entries[i].value.0;
        Success(Collect(keys, bodies))
  }

  /** `isinstance(mod_id, (int, list))`. */
  predicate IsModIds(v: PyValue) {
    v.PyInt? || v.PyBool? || v.PyList?
  }

  /** A body whose `mod_id` no later body holds is the value filed under that id. */
  lemma ModInfoLastBodyWins(n: NexusInterface, modList: PyValue, responses: seq<QueryResult>, j: nat)
    requires j < |responses| && ImportModInfo(n, modList, responses).Success?
    requires forall k :: j < k < |responses| ==> ModInfoEntry(responses[k]).value.0 != ModInfoEntry(responses[j]).value.0
    ensures ModInfoEntry(responses[j]).value.0 in ImportModInfo(n, modList, responses).value.Keys
    ensures ImportModInfo(n, modList, responses).value[ModInfoEntry(responses[j]).value.0] == Decode(responses[j]).value
  {
    var pairs := Sequence(ModInfoEntries(responses)).value;
    var keys := seq(|pairs|, k requires 0 <= k < |pairs| => pairs[k].0);
    var bodies := seq(|pairs|, k requires 0 <= k < |pairs| => pairs[k].1);
    CollectLastWins(keys, bodies, j);
  }

  /** Two bodies with the same `mod_id` collapse into one entry: the later body is kept. */
  lemma ModInfoSameIdCollapses(n: NexusInterface, modList: PyValue, responses: seq<QueryResult>, i: nat, j: nat)
    requires i < j < |responses| && ImportModInfo(n, modList, responses).Success?
    requires ModInfoEntry(responses[i]).value.0 == ModInfoEntry(responses[j]).value.0
    requires forall k :: j < k < |responses| ==> ModInfoEntry(responses[k]).value.0 != ModInfoEntry(responses[j]).value.0
    ensures ImportModInfo(n, modList, responses).value[ModInfoEntry(responses[i]).value.0] == Decode(responses[j]).value
  {
    ModInfoLastBodyWins(n, modList, responses, j);
  }
}

=== FILE: nexus_queries.dfy ===
/** Request resolution and transport-error handling of utils/nexus_queries.py
    (`NexusQuery` and `ModFileQuery`). */
module NexusQueries {
  import opened Wrappers
  import opened Exceptions
  import opened PyValues
  import Text
  import Decimal

  /** `NexusQuery._base_url`. */
  const BaseUrl: string := "https://api.nexusmods.com/v1/"

  /** The request function held in `query_type` (`requests.get` or `requests.post`). */
  datatype HttpMethod = Get | Post

  /** Query-string parameters and request headers, as the dictionaries handed to `requests`. */
  type Params = map<string, PyValue>
  type Headers = map<string, PyValue>

  /** A `NexusQuery`: every attribute may be `None`. */
  datatype NexusQuery = NexusQuery(url: Option<string>, queryType: Option<HttpMethod>,
                                   params: Option<Params>, headers: Option<Headers>)

  /** The arguments `query` hands to its request function. */
  datatype Request = Request(verb: Option<HttpMethod>, url: Option<string>,
                             params: Option<Params>, headers: Option<Headers>)

  /** A `requests.Response`: `requests.Response()` built by hand has no status and no body. */
  datatype Response = Response(status: Option<int>, body: Option<Json>)

  const EmptyResponse: Response := Response(None, None)

  /** What the request function did: answered, or raised one of the `requests` exceptions. */
  datatype Transport = Answered(response: Response) | Threw(error: RequestsError)

  /** What `query` hands back to its caller: a response, or an exception that escaped it. */
  datatype QueryResult = Returned(response: Response) | Raised(error: PyError)

  /** The `except` clauses of `query`, in source order. */
  const Handlers: seq<Handler> := [CatchConnectionError, CatchTimeout, CatchTooManyRedirects, CatchHTTPError, CatchURLRequired]

  /** The first handler of `hs` that catches `e`. */
  function FirstCatching(hs: seq<Handler>, e: RequestsError): (r: Option<nat>)
    ensures r.Some? ==> r.value < |hs| && IsInstance(e, hs[r.value])
    ensures r.Some? ==> forall j :: 0 <= j < r.value ==> !IsInstance(e, hs[j])
    ensures r.None? <==> forall j :: 0 <= j < |hs| ==> !IsInstance(e, hs[j])
  {
    if |hs| == 0 then None
    else if IsInstance(e, hs[0]) then Some(0)
    else
      match FirstCatching(hs[1..], e)
      case None => None
      case Some(k) => Some(k + 1)
  }

  /** The `except` clause of `query` that handles `e`, or `None` when `e` escapes. */
  function Classify(e: RequestsError): (h: Option<Handler>)
    ensures h.Some? <==> exists k :: 0 <= k < |Handlers| && IsInstance(e, Handlers[k])
    ensures h.Some? ==> IsInstance(e, h.value)
  {
    match FirstCatching(Handlers, e)
    case None => None
    case Some(k) => Some(Handlers[k])
  }

  /** The first clause in source order that catches an error handles it. */
  lemma FirstClauseWins(e: RequestsError, k: nat)
    requires k < |Handlers| && IsInstance(e, Handlers[k])
    requires forall j :: 0 <= j < k ==> !IsInstance(e, Handlers[j])
    ensures Classify(e) == Some(Handlers[k])
  {
    var r := FirstCatching(Handlers, e);
    assert r.Some?;
    assert r.value == k;
  }

  /** `ConnectionError` and its subclasses are caught by the first clause;
      `ConnectTimeout`, both a `ConnectionError` and a `Timeout`, is handled
      as a `ConnectionError`. */
  lemma ConnectionErrorsCaught(e: RequestsError)
    requires e.ConnectionError? || e.ProxyError? || e.SSLError? || e.ConnectTimeout?
    ensures Classify(e) == Some(CatchConnectionError)
  {
    FirstClauseWins(e, 0);
  }

  /** The handling table of `query`, clause by clause: the named classes and
      their subclasses, with `ConnectTimeout` under `ConnectionError`. */
  function HandlerTable(e: RequestsError): Option<Handler> {
    match e
    case ConnectionError => Some(CatchConnectionError)
    case ProxyError => Some(CatchConnectionError)
    case SSLError => Some(CatchConnectionError)
    case ConnectTimeout => Some(CatchConnectionError)
    case Timeout => Some(CatchTimeout)
    case ReadTimeout => Some(CatchTimeout)
    case TooManyRedirects => Some(CatchTooManyRedirects)
    case HTTPError => Some(CatchHTTPError)
    case URLRequired => Some(CatchURLRequired)
    case _ => None
  }

  /** First-match classification over the clauses agrees with the table for every error. */
  lemma ClassifyMatchesTable(e: RequestsError)
    ensures Classify(e) == HandlerTable(e)
  {
    match e
    case ConnectionError => FirstClauseWins(e, 0);
    case ProxyError => FirstClauseWins(e, 0);
    case SSLError => FirstClauseWins(e, 0);
    case ConnectTimeout => FirstClauseWins(e, 0);
    case Timeout => FirstClauseWins(e, 1);
    case ReadTimeout => FirstClauseWins(e, 1);
    case TooManyRedirects => FirstClauseWins(e, 2);
    case HTTPError => FirstClauseWins(e, 3);
    case URLRequired => FirstClauseWins(e, 4);
    case _ => assert forall k :: 0 <= k < |Handlers| ==> !IsInstance(e, Handlers[k]);
  }

  /** The argument defaulting of `query`: `None` picks the instance attribute;
      a given url is taken relative to the base URL, even one that is already absolute. */
  function ResolveRequest(q: NexusQuery, url: Option<string>, params: Option<Params>,
                          headers: Option<Headers>): (r: Request)
    ensures r.verb == q.queryType
    ensures r.params == if params.Some? then params else q.params
    ensures r.headers == if headers.Some? then headers else q.headers
    ensures url.None? ==> r.url == q.url
    ensures url.Some? ==> (r.url.Some? && |r.url.value| == |BaseUrl| + |url.value|
                           && r.url.value[..|BaseUrl|] == BaseUrl && r.url.value[|BaseUrl|..] == url.value)
  {
    Request(q.queryType,
            if url.None? then q.url else Some(BaseUrl + url.value),
            if params.None? then q.params else params,
            if headers.None? then q.headers else headers)
  }

  /** The `try`/`except` around the request: an answer is passed on, a handled
      exception becomes an empty response, any other exception escapes. */
  function Dispatch(t: Transport): (r: QueryResult)
    ensures t.Answered? ==> r == Returned(t.response)
    ensures t.Threw? && Classify(t.error).Some? ==> r == Returned(EmptyResponse)
    ensures t.Threw? && Classify(t.error).None? ==> r == Raised(Requests(t.error))
  {
    match t
    case Answered(resp) => Returned(resp)
    case Threw(e) => if Classify(e).Some? then Returned(EmptyResponse) else Raised(Requests(e))
  }

  /** Sending a resolved request: a request function left `None` is called
      all the same, inside the `try`; the `TypeError` this raises matches no
      `except` clause and escapes. Otherwise the `try`/`except` decides. */
  function Perform(request: Request, send: Request -> Transport): (r: QueryResult)
    ensures request.verb.None? <==> r == Raised(TypeError)
    ensures request.verb.Some? ==> r == Dispatch(send(request))
  {
    if request.verb.None? then Raised(TypeError) else Dispatch(send(request))
  }

  /** `NexusQuery.query(url, params, headers)` against a request function `send`. */
  function Query(q: NexusQuery, url: Option<string>, params: Option<Params>, headers: Option<Headers>,
                 send: Request -> Transport): (r: QueryResult)
    ensures q.queryType.None? ==> r == Raised(TypeError)
    ensures q.queryType.Some? ==> var t := send(ResolveRequest(q, url, params, headers));
      && (t.Answered? ==> r == Returned(t.response))
      && (t.Threw? && Classify(t.error).Some? ==> r == Returned(EmptyResponse))
      && (t.Threw? && Classify(t.error).None? ==> r == Raised(Requests(t.error)))
  {
    Perform(ResolveRequest(q, url, params, headers), send)
  }

  /** No exception `query` names ever escapes it. */
  lemma HandledNeverEscapes(q: NexusQuery, url: Option<string>, params: Option<Params>,
                            headers: Option<Headers>, send: Request -> Transport, k: nat)
    requires k < |Handlers| && q.queryType.Some?
    requires send(ResolveRequest(q, url, params, headers)).Threw?
    requires IsInstance(send(ResolveRequest(q, url, params, headers)).error, Handlers[k])
    ensures Query(q, url, params, headers, send) == Returned(EmptyResponse)
  {
  }

  /** A relative path is found again after the base URL, so distinct paths give distinct URLs. */
  lemma ResolvedUrlIsInjective(q: NexusQuery, a: string, b: string)
    requires a != b
    ensures ResolveRequest(q, Some(a), None, None).url != ResolveRequest(q, Some(b), None, None).url
  {
    var ra, rb := ResolveRequest(q, Some(a), None, None), ResolveRequest(q, Some(b), None, None);
    assert ra.url.value[|BaseUrl|..] == a;
    assert rb.url.value[|BaseUrl|..] == b;
  }

  /** `str(x)` of an optional string attribute: `None` is written `"None"`. */
  function FormatText(x: Option<string>): string {
    match x
    case Some(s) => s
    case None => "None"
  }

  /** `str(x)` of an optional integer attribute. */
  function FormatInt(x: Option<int>): string {
    match x
    case Some(n) => Decimal.IntToString(n)
    case None => "None"
  }

  /** One piece of a `str.format` template: literal text or a `{name}` field. */
  datatype TemplatePart = Literal(text: string) | Field(name: string)

  /** `template.format(*positional, **named)` for templates whose fields are all
      named: each `{name}` is looked up among the keyword arguments only, and a
      name that is not there raises `KeyError`; positional arguments are never
      consulted. */
  function Format(template: seq<TemplatePart>, positional: seq<string>, named: map<string, string>): (r: Result<string, PyError>)
    ensures r.Success? <==> forall i :: 0 <= i < |template| && template[i].Field? ==> template[i].name in named
    ensures r.Failure? ==> r.error == KeyError
  {
    if |template| == 0 then Success("")
    else
      var rest := Format(template[1..], positional, named);
      assert forall i :: 1 <= i < |template| ==> template[i] == template[1..][i - 1];
      match template[0]
      case Literal(text) => if rest.Success? then Success(text + rest.value) else rest
      case Field(name) =>
        if name !in named then Failure(KeyError)
        else if rest.Success? then Success(named[name] + rest.value) else rest
  }

  /** `"games/{domain}/mods/{mod_id}/files.json"`. */
  const FilesTemplate: seq<TemplatePart> :=
    [Literal("games/"), Field("domain"), Literal("/mods/"), Field("mod_id"), Literal("/files.json")]

  /** `"games/{domain}/mods/{mod_id}/files/{file_id}/download_link.json"`. */
  const DownloadLinkTemplate: seq<TemplatePart> :=
    [Literal("games/"), Field("domain"), Literal("/mods/"), Field("mod_id"),
     Literal("/files/"), Field("file_id"), Literal("/download_link.json")]

  /** `list_files` fills the named template with positional arguments, so the
      formatting raises `KeyError` whatever the domain and mod id. */
  lemma FilesTemplateAsWritten(domain: string, modId: string)
    ensures Format(FilesTemplate, [domain, modId], map[]) == Failure(KeyError)
  {
    assert FilesTemplate[1] == Field("domain");
  }

  /** `generateLink` does the same with three positional arguments. */
  lemma DownloadLinkTemplateAsWritten(domain: string, modId: string, fileId: string)
    ensures Format(DownloadLinkTemplate, [domain, modId, fileId], map[]) == Failure(KeyError)
  {
    assert DownloadLinkTemplate[1] == Field("domain");
  }

  /** The file-list path the template describes: its fields joined by `/`.
      This is what `list_files` evidently means to request. */
  function FilesPath(domain: string, modId: string): string {
    Text.Join(["games", domain, "mods", modId, "files.json"], '/')
  }

  /** The download-link path the template of `generateLink` describes. */
  function DownloadLinkPath(domain: string, modId: string, fileId: string): string {
    Text.Join(["games", domain, "mods", modId, "files", fileId, "download_link.json"], '/')
  }

  /** Filled by name, the file-list template gives exactly `FilesPath`. */
  lemma FilesTemplateByName(domain: string, modId: string)
    ensures Format(FilesTemplate, [], map["domain" := domain, "mod_id" := modId]) == Success(FilesPath(domain, modId))
  {
    var named := map["domain" := domain, "mod_id" := modId];
    var t := FilesTemplate;
    assert t[4..] == [Literal("/files.json")] && t[4..][1..] == [];
    assert Format([], [], named) == Success("");
    assert "/files.json" + "" == "/files.json";
    assert Format(t[4..], [], named) == Success("/files.json");
    assert t[3..][1..] == t[4..];
    var s3 := modId + "/files.json";
    assert Format(t[3..], [], named) == Success(s3);
    assert t[2..][1..] == t[3..];
    var s2 := "/mods/" + s3;
    assert Format(t[2..], [], named) == Success(s2);
    assert t[1..][1..] == t[2..];
    var s1 := domain + s2;
    assert Format(t[1..], [], named) == Success(s1);
    assert Format(t, [], named) == Success("games/" + s1);
    FilesJoinTail(domain, modId);
  }

  /** Filled by name, the download-link template gives exactly `DownloadLinkPath`. */
  lemma DownloadLinkTemplateByName(domain: string, modId: string, fileId: string)
    ensures Format(DownloadLinkTemplate, [], map["domain" := domain, "mod_id" := modId, "file_id" := fileId])
         == Success(DownloadLinkPath(domain, modId, fileId))
  {
    var named := map["domain" := domain, "mod_id" := modId, "file_id" := fileId];
    var t := DownloadLinkTemplate;
    assert t[6..] == [Literal("/download_link.json")] && t[6..][1..] == [];
    assert Format([], [], named) == Success("");
    assert "/download_link.json" + "" == "/download_link.json";
    assert Format(t[6..], [], named) == Success("/download_link.json");
    assert t[5..][1..] == t[6..];
    var s5 := fileId + "/download_link.json";
    assert Format(t[5..], [], named) == Success(s5);
    assert t[4..][1..] == t[5..];
    var s4 := "/files/" + s5;
    assert Format(t[4..], [], named) == Success(s4);
    assert t[3..][1..] == t[4..];
    var s3 := modId + s4;
    assert Format(t[3..], [], named) == Success(s3);
    assert t[2..][1..] == t[3..];
    var s2 := "/mods/" + s3;
    assert Format(t[2..], [], named) == Success(s2);
    assert t[1..][1..] == t[2..];
    var s1 := domain + s2;
    assert Format(t[1..], [], named) == Success(s1);
    assert Format(t, [], named) == Success("games/" + s1);
    DownloadJoinTail(domain, modId, fileId);
  }

  lemma DownloadJoinTail(domain: string, modId: string, fileId: string)
    ensures DownloadLinkPath(domain, modId, fileId)
         == "games/" + (domain + ("/mods/" + (modId + ("/files/" + (fileId + "/download_link.json")))))
  {
    var d := Text.Join([modId, "files", fileId, "download_link.json"], '/');
    DownloadJoinInner(modId, fileId);
    var c := "mods" + ['/'] + d;
    Text.JoinCons("mods", [modId, "files", fileId, "download_link.json"], '/');
    assert ['/'] + c == "/mods/" + d;
    var b := domain + ['/'] + c;
    Text.JoinCons(domain, ["mods", modId, "files", fileId, "download_link.json"], '/');
    assert b == domain + ("/mods/" + d);
    Text.JoinCons("games", [domain, "mods", modId, "files", fileId, "download_link.json"], '/');
    assert "games" + ['/'] + b == "games/" + b;
  }

  lemma DownloadJoinInner(modId: string, fileId: string)
    ensures Text.Join([modId, "files", fileId, "download_link.json"], '/')
         == modId + ("/files/" + (fileId + "/download_link.json"))
  {
    var f := fileId + ['/'] + "download_link.json";
    Text.JoinCons(fileId, ["download_link.json"], '/');
    assert Text.Join(["download_link.json"], '/') == "download_link.json";
    assert f == fileId + "/download_link.json";
    var e := "files" + ['/'] + f;
    Text.JoinCons("files", [fileId, "download_link.json"], '/');
    assert ['/'] + e == "/files/" + f;
    Text.JoinCons(modId, ["files", fileId, "download_link.json"], '/');
  }

  /** The joined fields, written as the template writes them. */
  lemma FilesJoinTail(domain: string, modId: string)
    ensures FilesPath(domain, modId) == "games/" + (domain + ("/mods/" + (modId + "/files.json")))
  {
    Text.JoinCons(modId, ["files.json"], '/');
    Text.JoinCons("mods", [modId, "files.json"], '/');
    Text.JoinCons(domain, ["mods", modId, "files.json"], '/');
    Text.JoinCons("games", [domain, "mods", modId, "files.json"], '/');
    assert Text.Join(["files.json"], '/') == "files.json";
    var a := modId + ['/'] + "files.json";
    assert a == modId + "/files.json";
    var b := "mods" + ['/'] + a;
    assert ['/'] + b == "/mods/" + (modId + "/files.json");
    var c := domain + ['/'] + b;
    assert c == domain + ("/mods/" + (modId + "/files.json"));
    assert "games" + ['/'] + c == "games/" + c;
  }

  /** The file-list path splits on `/` into exactly its five fields, so the
      domain and mod id are recovered from it. */
  lemma FilesPathShape(domain: string, modId: string)
    requires '/' !in domain && '/' !in modId
    ensures Text.Split(FilesPath(domain, modId), '/') == ["games", domain, "mods", modId, "files.json"]
  {
    Text.SplitJoin(["games", domain, "mods", modId, "files.json"], '/');
  }

  /** The download-link path splits on `/` into exactly its seven fields. */
  lemma DownloadLinkPathShape(domain: string, modId: string, fileId: string)
    requires '/' !in domain && '/' !in modId && '/' !in fileId
    ensures Text.Split(DownloadLinkPath(domain, modId, fileId), '/')
         == ["games", domain, "mods", modId, "files", fileId, "download_link.json"]
  {
    Text.SplitJoin(["games", domain, "mods", modId, "files", fileId, "download_link.json"], '/');
  }

  /** A `ModFileQuery`: a `NexusQuery` plus the mod coordinates it defaults to. */
  datatype ModFileQuery = ModFileQuery(query: NexusQuery, gameDomain: Option<string>,
                                       modId: Option<int>, fileId: Option<int>)

  /** One call of a `ModFileQuery` method: the object afterwards (its `url`
      attribute now holds the relative path) and what the query returned. */
  datatype ModFileCall = ModFileCall(state: ModFileQuery, request: Request, result: QueryResult)

  /** `ModFileQuery.list_files(game_domain, mod_id, params, headers)`. */
  function ListFiles(m: ModFileQuery, gameDomain: Option<string>, modId: Option<int>,
                     params: Option<Params>, headers: Option<Headers>,
                     send: Request -> Transport): (c: ModFileCall)
    ensures var domain := if gameDomain.Some? then gameDomain else m.gameDomain;
            var id := if modId.Some? then modId else m.modId;
            var path := FilesPath(FormatText(domain), FormatInt(id));
      && c.state == m.(query := m.query.(url := Some(path)))
      && c.request.verb == m.query.queryType
      && c.request.url == Some(BaseUrl + path)
      && c.request.params == (if params.Some? then params else m.query.params)
      && c.request.headers == (if headers.Some? then headers else m.query.headers)
      && c.result == Query(c.state.query, Some(path), c.request.params, c.request.headers, send)
  {
    var domain := if gameDomain.None? then m.gameDomain else gameDomain;
    var id := if modId.None? then m.modId else modId;
    var ps := if params.None? then m.query.params else params;
    var hs := if headers.None? then m.query.headers else headers;
    var path := FilesPath(FormatText(domain), FormatInt(id));
    var state := m.(query := m.query.(url := Some(path)));
    var request := ResolveRequest(state.query, state.query.url, ps, hs);
    ModFileCall(state, request, Perform(request, send))
  }

  /** `ModFileQuery.generateLink(game_domain, mod_id, file_id, params, headers)`. */
  function GenerateLink(m: ModFileQuery, gameDomain: Option<string>, modId: Option<int>, fileId: Option<int>,
                        params: Option<Params>, headers: Option<Headers>,
                        send: Request -> Transport): (c: ModFileCall)
    ensures var domain := if gameDomain.Some? then gameDomain else m.gameDomain;
            var mid := if modId.Some? then modId else m.modId;
            var fid := if fileId.Some? then fileId else m.fileId;
            var path := DownloadLinkPath(FormatText(domain), FormatInt(mid), FormatInt(fid));
      && c.state == m.(query := m.query.(url := Some(path)))
      && c.request.verb == m.query.queryType
      && c.request.url == Some(BaseUrl + path)
      && c.request.params == (if params.Some? then params else m.query.params)
      && c.request.headers == (if headers.Some? then headers else m.query.headers)
      && c.result == Query(c.state.query, Some(path), c.request.params, c.request.headers, send)
  {
    var domain := if gameDomain.None? then m.gameDomain else gameDomain;
    var mid := if modId.None? then m.modId else modId;
    var fid := if fileId.None? then m.fileId else fileId;
    var ps := if params.None? then m.query.params else params;
    var hs := if headers.None? then m.query.headers else headers;
    var path := DownloadLinkPath(FormatText(domain), FormatInt(mid), FormatInt(fid));
    var state := m.(query := m.query.(url := Some(path)));
    var request := ResolveRequest(state.query, state.query.url, ps, hs);
    ModFileCall(state, request, Perform(request, send))
  }

  /** Asking for the files of mod 3863 of the instance's domain "skyrim" requests
      the base URL followed by `games/skyrim/mods/3863/files.json`. */
  lemma ListFilesExample(m: ModFileQuery, send: Request -> Transport)
    requires m.gameDomain == Some("skyrim")
    ensures ListFiles(m, None, Some(3863), None, None, send).request.url
         == Some(BaseUrl + "games/skyrim/mods/3863/files.json")
  {
    Decimal.IntToStringExample();
    FilesPathExample();
    assert FormatInt(Some(3863)) == "3863";
    assert FormatText(Some("skyrim")) == "skyrim";
  }

  /** `str.format` of the files template for mod 3863 of Skyrim. */
  lemma FilesPathExample()
    ensures FilesPath("skyrim", "3863") == "games/skyrim/mods/3863/files.json"
  {
    assert FilesPath("skyrim", "3863") == Text.Join(["games", "skyrim", "mods", "3863", "files.json"], '/');
    FilesPathTail();
    Text.JoinCons("games", ["skyrim", "mods", "3863", "files.json"], '/');
  }

  lemma FilesPathTail()
    ensures Text.Join(["skyrim", "mods", "3863", "files.json"], '/') == "skyrim/mods/3863/files.json"
  {
    ModPathTail();
    Text.JoinCons("skyrim", ["mods", "3863", "files.json"], '/');
  }

  lemma ModPathTail()
    ensures Text.Join(["mods", "3863", "files.json"], '/') == "mods/3863/files.json"
  {
    Text.JoinCons("3863", ["files.json"], '/');
    Text.JoinCons("mods", ["3863", "files.json"], '/');
  }
}

=== FILE: pyvalues.dfy ===
/** Dynamically typed values: Python objects passed to untyped parameters, and
    decoded JSON bodies. */
module PyValues {
  import opened Wrappers

  /** The Python objects the modelled parameters and attributes can hold. */
  datatype PyValue = PyNone | PyBool(b: bool) | PyInt(i: int) | PyStr(s: string) | PyList(items: seq<PyValue>)

  /** A decoded JSON document, as `response.json()` returns it (floats are not modelled). */
  datatype Json =
    | JNull
    | JBool(b: bool)
    | JInt(i: int)
    | JString(s: string)
    | JArray(items: seq<Json>)
    | JObject(fields: map<string, Json>)

  /** The equivalence classes of hashable dictionary keys: Python's `True == 1`
      and `False == 0` hash alike, so booleans land on integer keys. */
  datatype DictKey = KNone | KInt(i: int) | KStr(s: string)

  /** The dictionary key a decoded JSON value stands for, or `None` when the
      value is unhashable (a list or a dict). */
  function KeyOf(j: Json): (k: Option<DictKey>)
    ensures k.None? <==> (j.JArray? || j.JObject?)
    ensures j.JBool? ==> k == Some(KInt(if j.b then 1 else 0))
  {
    match j
    case JNull => Some(KNone)
    case JBool(b) => Some(KInt(if b then 1 else 0))
    case JInt(i) => Some(KInt(i))
    case JString(s) => Some(KStr(s))
    case JArray(_) => None
    case JObject(_) => None
  }
}

=== FILE: text.dfy ===
/** Python string operations the core relies on: `str.split` on a single
    separator character, the last segment it yields, and universal-newline
    translation of text read from a file. */
module Text {
  import opened Wrappers

  /** `s.split(sep)` for a one-character separator: the pieces between
      consecutive separators, from left to right. */
  function Split(s: string, sep: char): (pieces: seq<string>)
    ensures |pieces| >= 1
    ensures forall i :: 0 <= i < |pieces| ==> sep !in pieces[i]
  {
    if |s| == 0 then [""]
    else if s[0] == sep then [""] + Split(s[1..], sep)
    else
      var rest := Split(s[1..], sep);
      [[s[0]] + rest[0]] + rest[1..]
  }

  /** `sep.join(pieces)`. */
  function Join(pieces: seq<string>, sep: char): string
    requires |pieces| >= 1
  {
    if |pieces| == 1 then pieces[0] else pieces[0] + [sep] + Join(pieces[1..], sep)
  }

  /** Joining a first piece before a non-empty list puts one separator between them. */
  lemma JoinCons(first: string, rest: seq<string>, sep: char)
    requires |rest| >= 1
    ensures Join([first] + rest, sep) == first + [sep] + Join(rest, sep)
  {
    assert ([first] + rest)[1..] == rest;
  }

  /** Joining the pieces of a split with the same separator gives the string back. */
  lemma {:induction false} JoinSplit(s: string, sep: char)
    ensures Join(Split(s, sep), sep) == s
  {
    if |s| == 0 {
    } else if s[0] == sep {
      JoinSplit(s[1..], sep);
      var pieces := Split(s, sep);
      assert pieces == [""] + Split(s[1..], sep);
      assert pieces[1..] == Split(s[1..], sep);
      assert Join(pieces, sep) == "" + [sep] + s[1..];
      assert s == [sep] + s[1..];
    } else {
      var rest := Split(s[1..], sep);
      JoinSplit(s[1..], sep);
      var pieces := Split(s, sep);
      assert pieces == [[s[0]] + rest[0]] + rest[1..];
      if |rest| == 1 {
        assert Join(pieces, sep) == [s[0]] + rest[0];
        assert s == [s[0]] + s[1..];
      } else {
        assert pieces[1..] == rest[1..];
        assert Join(rest, sep) == rest[0] + [sep] + Join(rest[1..], sep);
        assert Join(pieces, sep) == [s[0]] + rest[0] + [sep] + Join(rest[1..], sep);
        assert s == [s[0]] + s[1..];
      }
    }
  }

  /** A string with no separator splits into itself alone. */
  lemma {:induction false} SplitWithoutSeparator(s: string, sep: char)
    requires sep !in s
    ensures Split(s, sep) == [s]
  {
    if |s| > 0 {
      SplitWithoutSeparator(s[1..], sep);
      assert s == [s[0]] + s[1..];
    }
  }

  /** Splitting around one separator splits each side independently. */
  lemma {:induction false} SplitAround(a: string, sep: char, b: string)
    ensures Split(a + [sep] + b, sep) == Split(a, sep) + Split(b, sep)
  {
    if |a| == 0 {
      assert a + [sep] + b == [sep] + b;
      assert ([sep] + b)[1..] == b;
    } else {
      var s := a + [sep] + b;
      assert s[1..] == a[1..] + [sep] + b;
      SplitAround(a[1..], sep, b);
      if a[0] == sep {
      } else {
        var rest := Split(a[1..], sep);
        assert Split(s[1..], sep) == rest + Split(b, sep);
      }
    }
  }

  /** Splitting the join of separator-free pieces gives the pieces back. */
  lemma {:induction false} SplitJoin(pieces: seq<string>, sep: char)
    requires |pieces| >= 1
    requires forall i :: 0 <= i < |pieces| ==> sep !in pieces[i]
    ensures Split(Join(pieces, sep), sep) == pieces
  {
    if |pieces| == 1 {
      SplitWithoutSeparator(pieces[0], sep);
    } else {
      SplitJoin(pieces[1..], sep);
      SplitAround(pieces[0], sep, Join(pieces[1..], sep));
      SplitWithoutSeparator(pieces[0], sep);
      assert pieces == [pieces[0]] + pieces[1..];
    }
  }

  /** The index of the last occurrence of `c` in `s`. */
  function LastIndexOf(s: string, c: char): (r: Option<nat>)
    ensures r.Some? ==> r.value < |s| && s[r.value] == c && c !in s[r.value + 1..]
    ensures r.None? <==> c !in s
  {
    if |s| == 0 then None
    else if s[|s| - 1] == c then Some(|s| - 1)
    else
      var r := LastIndexOf(s[..|s| - 1], c);
      assert s == s[..|s| - 1] + [s[|s| - 1]];
      r
  }

  /** An occurrence of `c` with none after it is the last one. */
  lemma {:induction false} LastIndexOfIs(s: string, c: char, k: nat)
    requires k < |s| && s[k] == c && c !in s[k + 1..]
    ensures LastIndexOf(s, c) == Some(k)
    decreases |s|
  {
    if k < |s| - 1 {
      var t := s[..|s| - 1];
      assert s[|s| - 1] == s[k + 1..][|s| - 2 - k];
      assert t[k + 1..] == s[k + 1..|s| - 1];
      LastIndexOfIs(t, c, k);
    }
  }

  /** Appending text without `c` keeps the last `c` where it was. */
  lemma LastIndexOfAppend(a: string, c: char, b: string)
    requires c in a && c !in b
    ensures LastIndexOf(a + b, c) == LastIndexOf(a, c)
  {
    var k := LastIndexOf(a, c).value;
    var s := a + b;
    assert s[k] == a[k] == c;
    assert s[k + 1..] == a[k + 1..] + b;
    assert c !in s[k + 1..];
    LastIndexOfIs(s, c, k);
  }

  /** The text after the last `sep` of `s`, or all of `s` when it has none. */
  function LastSegment(s: string, sep: char): (seg: string)
    ensures sep !in seg
    ensures |seg| <= |s| && seg == s[|s| - |seg|..]
    ensures |seg| < |s| ==> s[|s| - |seg| - 1] == sep
  {
    match LastIndexOf(s, sep)
    case None => s
    case Some(i) => s[i + 1..]
  }

  /** The last segment of `a + sep + b` is `b` when `b` has no separator. */
  lemma LastSegmentAfter(a: string, sep: char, b: string)
    requires sep !in b
    ensures LastSegment(a + [sep] + b, sep) == b
  {
    var s := a + [sep] + b;
    var r := LastIndexOf(s, sep);
    assert s[|a|] == sep;
    assert s[|a| + 1..] == b;
  }

  /** `url.split(sep)[-1]` is the last segment of `url`. */
  lemma {:induction false} LastPieceIsLastSegment(s: string, sep: char)
    ensures var pieces := Split(s, sep); pieces[|pieces| - 1] == LastSegment(s, sep)
  {
    match LastIndexOf(s, sep)
    case None =>
      SplitWithoutSeparator(s, sep);
    case Some(i) =>
      var a, b := s[..i], s[i + 1..];
      assert s == a + [sep] + b;
      SplitAround(a, sep, b);
      SplitWithoutSeparator(b, sep);
  }

  /** Text-mode reading with `newline=None`: every `"\r\n"` and every lone
      `'\r'` becomes `'\n'`. */
  function UniversalNewlines(s: string): (t: string)
    ensures '\r' !in t
    ensures |t| <= |s|
  {
    if |s| == 0 then ""
    else if s[0] == '\r' then
      if |s| > 1 && s[1] == '\n' then "\n" + UniversalNewlines(s[2..])
      else "\n" + UniversalNewlines(s[1..])
    else [s[0]] + UniversalNewlines(s[1..])
  }

  /** Text without carriage returns is read back exactly, trailing newlines and
      whitespace included. */
  lemma {:induction false} UniversalNewlinesKeepsPlainText(s: string)
    requires '\r' !in s
    ensures UniversalNewlines(s) == s
  {
    if |s| > 0 {
      UniversalNewlinesKeepsPlainText(s[1..]);
      assert s == [s[0]] + s[1..];
    }
  }
}

=== FILE: wrappers.dfy ===
/** Failure-carrying results shared by every module of the model. */
module Wrappers {

  /** A value that may be absent; `None` also stands for Python's `None` argument. */
  datatype Option<+T> = None | Some(value: T)

  /** Either a computed value or the exception that ended the computation. */
  datatype Result<+T, +E> = Success(value: T) | Failure(error: E)

  /** Every result of `rs` is a success. */
  predicate AllSucceed<T, E>(rs: seq<Result<T, E>>) {
    forall i :: 0 <= i < |rs| ==> rs[i].Success?
  }

  /** A loop that computes the results of `rs` in order and stops at the first
      exception: all the values, or the first error. */
  function Sequence<T, E>(rs: seq<Result<T, E>>): (r: Result<seq<T>, E>)
    ensures r.Success? <==> AllSucceed(rs)
    ensures r.Success? ==> |r.value| == |rs| && forall i :: 0 <= i < |rs| ==> r.value[i] == rs[i].value
    ensures r.Failure? ==> exists k :: 0 <= k < |rs| && AllSucceed(rs[..k]) && rs[k] == Failure(r.error)
  {
    if |rs| == 0 then Success([])
    else
      match rs[0]
      case Failure(e) =>
        assert AllSucceed(rs[..0]);
        Failure(e)
      case Success(v) =>
        assert forall j :: 0 <= j < |rs[1..]| ==> rs[1..][j] == rs[j + 1];
        match Sequence(rs[1..])
        case Failure(e) =>
          assert exists k :: 0 <= k < |rs| && AllSucceed(rs[..k]) && rs[k] == Failure(e) by {
            var k :| 0 <= k < |rs[1..]| && AllSucceed(rs[1..][..k]) && rs[1..][k] == Failure(e);
            assert rs[..k + 1] == [rs[0]] + rs[1..][..k];
          }
          Failure(e)
        case Success(vs) => Success([v] + vs)
  }

  /** The first failing result decides the error, whatever follows it. */
  lemma {:induction false} FirstFailureDecides<T, E>(rs: seq<Result<T, E>>, i: nat)
    requires i < |rs| && AllSucceed(rs[..i]) && rs[i].Failure?
    ensures Sequence(rs) == Failure(rs[i].error)
  {
    if i > 0 {
      assert rs[..i][0] == rs[0];
      assert rs[1..][..i - 1] == rs[..i][1..];
      FirstFailureDecides(rs[1..], i - 1);
    }
  }

  /** The outcome of a statement that mutates an object: the object afterwards
      and, when the statement raised, the exception. A raising statement leaves
      the object as it was. */
  datatype Step<+S, +E> = Step(state: S, raised: Option<E>)
}
